=== FILE: README.md ===
# JPA-Relationships in Dafny

A model of the service layer of JPA-Relationships, a Spring backend for
students, courses, assignments and addresses. A student has one address
(one-to-one, cascade ALL, orphan removal). A student owns many assignments
(one-to-many, cascade ALL, orphan removal). Students and courses are linked
many-to-many: the student side owns the `student_course` join table, and the
course side is `mappedBy`.

The database is a value, `EntityStore.Store`. It has one map per table, keyed
by id, and the IDENTITY counter of each table. Every service call is a pure
function from a store to a `Result`. A call either commits a new store or
fails with `NotFound(message)` or `Conflict(message)`. On failure the caller
keeps the old store, which is what the transaction rollback gives.
`Application.Run` applies any sequence of calls this way.

Modules, one per source component:

- `Wrappers`: `Option` (Java's nullable references), `Result` and `Error`, and
  decimal rendering of ids for the error messages, with its inverse.
- `Entities`: the entities and DTOs, and Java's `Set.add` and `Set.remove`.
  A `HashSet` of entities under Lombok's id-only equality behaves as the set
  of their ids, which is how the model holds `Student.courses` and
  `Course.students`.
- `Mappers`: the MapStruct mappers, under their two disciplines. A full
  update writes nulls too. A patch ignores null properties.
- `EntityStore`: the store, its invariant `Valid`, and the persistence steps:
  - saving a student with its address cascade;
  - batch-inserting assignments;
  - deleting a student with its cascades;
  - the id order in which rows are listed.
- `StudentService`, `CourseService`, `AssignmentService`, `EnrollmentService`:
  the four services.
- `DataInitializer`: the start-up seeding of the course table.
- `Application`: every state-changing call, and the start-up seeding, as a
  `Command`. This module proves that the store invariant holds after any
  sequence of them from the empty database, and that an enrolment is
  reachable that way.

The store invariant `Valid` has six parts:

- every record carries its own key;
- every key was issued by its table's counter;
- no two students share an address row;
- every link resolves to a stored row;
- the two sides of the student–course association agree;
- every assignment has a stored owner.

`EnrollmentService`'s private `findStudent` and `findCourse` are the same
lookups as `StudentService.findById` and `CourseService.findById`, with the
same messages. The model uses the latter two.

## Model

| member | source | states |
|---|---|---|
| `Wrappers.Decimal` | src/main/java/com/spring/JpaRelationships/service/StudentService.java:34 | The rendering of a non-negative id is a non-empty string of decimal digits without a leading zero |
| `Wrappers.DecimalRoundTrip` | src/main/java/com/spring/JpaRelationships/service/StudentService.java:34 | Reading the decimal rendering of `n` back as a number gives `n` |
| `Wrappers.IdToString` | src/main/java/com/spring/JpaRelationships/service/AssignmentService.java:48 | An id renders with a leading minus sign exactly when it is negative; every other character is a decimal digit, the first is not a zero unless the id is 0, and the digits read back as the id's magnitude |
| `Wrappers.IdToStringInjective` | src/main/java/com/spring/JpaRelationships/service/EnrollmentService.java:55 | Different ids render differently, so each NotFound message names exactly one id |
| `Entities.KeySet` | src/main/java/com/spring/JpaRelationships/entity/Student.java:20-28 | The ids of a collection of entities: every element's id, and only those |
| `Entities.HashSetAdd` | src/main/java/com/spring/JpaRelationships/entity/Student.java:42-47 | `HashSet.add` under id-only equality: true exactly when no held element has the same id; afterwards every old element and, on true, the new one are held, and nothing with another id is added |
| `Entities.HashSetRemove` | src/main/java/com/spring/JpaRelationships/entity/Course.java:14-28 | `HashSet.remove` under id-only equality: true exactly when an element with that id is held; afterwards exactly the elements with other ids remain |
| `Entities.HashSetAddIsSetAdd` | src/main/java/com/spring/JpaRelationships/entity/Student.java:20-28 | Adding an entity to a `HashSet` gives the same answer, and leaves the same ids, as `Set.add` of its id on the set of ids |
| `Entities.HashSetRemoveIsSetRemove` | src/main/java/com/spring/JpaRelationships/entity/Course.java:14-21 | Removing an entity from a `HashSet` gives the same answer, and leaves the same ids, as `Set.remove` of its id on the set of ids |
| `Entities.UnsavedStudentsCollide` | src/main/java/com/spring/JpaRelationships/entity/Student.java:20-28 | Two students that were never saved are equal, so a `HashSet` holding one refuses the other, whatever their names or emails |
| `Entities.SetAdd` | src/main/java/com/spring/JpaRelationships/service/EnrollmentService.java:35 | `add` reports true exactly when the element was absent; afterwards the set holds the element and nothing else new; a false add leaves the set unchanged |
| `Entities.SetRemove` | src/main/java/com/spring/JpaRelationships/service/EnrollmentService.java:52 | `remove` reports true exactly when the element was present; afterwards the set lacks it and lost nothing else; a false remove leaves the set unchanged |
| `Entities.AddThenRemove` | src/main/java/com/spring/JpaRelationships/service/EnrollmentService.java:35-52 | Adding an element and then removing it restores the set exactly when the add succeeded; when the element was already present, the remove takes it out and the set differs |
| `Mappers.UpdateAddressFromDto` | src/main/java/com/spring/JpaRelationships/mapper/AddressMapper.java:9-11 | The address keeps its id and reads back as the DTO, null fields included |
| `Mappers.PatchAddressFromDto` | src/main/java/com/spring/JpaRelationships/mapper/AddressMapper.java:13-16 | The address keeps its id; each field takes the DTO's value when non-null and keeps its own otherwise |
| `Mappers.AddressMergesIdempotent` | src/main/java/com/spring/JpaRelationships/mapper/AddressMapper.java:9-16 | Applying the same update or patch twice equals applying it once; a patch with an all-null DTO changes nothing |
| `Mappers.AddressPatchOfFullDtoIsUpdate` | src/main/java/com/spring/JpaRelationships/mapper/AddressMapper.java:9-16 | A patch whose fields are all non-null is the full update |
| `Mappers.StudentToDto` | src/main/java/com/spring/JpaRelationships/mapper/StudentMapper.java:19 | The DTO carries the student's name and email, and an address exactly when the student has one, with the same street, zip code and city |
| `Mappers.StudentToEntity` | src/main/java/com/spring/JpaRelationships/mapper/StudentMapper.java:21 | The new student has no id, no courses and an unsaved address, and reads back as the DTO it came from |
| `Mappers.UpdateStudentFromDto` | src/main/java/com/spring/JpaRelationships/mapper/StudentMapper.java:10-12 | Id and courses are kept and the student reads back as the DTO. An existing address keeps its id under a non-null DTO address. A student without an address gets a new, unsaved one |
| `Mappers.PatchStudentFromDto` | src/main/java/com/spring/JpaRelationships/mapper/StudentMapper.java:14-17 | Id and courses are kept. Name and email follow the patch rule. A null DTO address keeps the address. Otherwise an existing address is patched in place with its id kept, and a missing one is created from the DTO |
| `Mappers.StudentMergesIdempotent` | src/main/java/com/spring/JpaRelationships/mapper/StudentMapper.java:10-17 | Applying the same update or patch twice equals applying it once; a patch with an all-null DTO changes nothing |
| `Mappers.AssignmentToEntity` | src/main/java/com/spring/JpaRelationships/mapper/AssignmentMapper.java:10-12 | The new assignment has no id, is owned by the given student and carries the DTO's title and due date |
| `Mappers.UpdateAssignmentFromDto` | src/main/java/com/spring/JpaRelationships/mapper/AssignmentMapper.java:14-15 | Id and owner are kept; title and due date become the DTO's, nulls included |
| `Mappers.PatchAssignmentFromDto` | src/main/java/com/spring/JpaRelationships/mapper/AssignmentMapper.java:17-19 | Id and owner are kept; title and due date follow the patch rule |
| `Mappers.AssignmentMergeLaws` | src/main/java/com/spring/JpaRelationships/mapper/AssignmentMapper.java:14-19 | Both merges are idempotent; an all-null patch changes nothing; a patch with no null field is the full update |
| `Mappers.CourseToDto` | src/main/java/com/spring/JpaRelationships/mapper/CourseMapper.java:11 | The DTO carries the course's code and name |
| `Mappers.CourseToEntity` | src/main/java/com/spring/JpaRelationships/mapper/CourseMapper.java:9 | The new course has no id and no students, and reads back as the DTO |
| `EntityStore.EmptyIsValid` | src/main/java/com/spring/JpaRelationships/DataInitializer.java:21 | The empty database satisfies the store invariant |
| `EntityStore.AddressIds` | src/main/java/com/spring/JpaRelationships/entity/Student.java:33-36 | An id is an address row exactly when a stored student holds a saved address with that id |
| `EntityStore.OwnedAssignments` | src/main/java/com/spring/JpaRelationships/entity/Student.java:38-40 | `Student.assignments` is exactly the set of stored assignments whose owner is that student |
| `EntityStore.PersistAddress` | src/main/java/com/spring/JpaRelationships/entity/Student.java:33-34 | The cascade gives an unsaved address the next address id and advances the counter; a saved address is kept as is |
| `EntityStore.SaveStudent` | src/main/java/com/spring/JpaRelationships/entity/Student.java:26-36 | An unsaved student is inserted under the next student id; a saved one overwrites its row. The address is persisted by the cascade. Courses, assignments and the other counters are unchanged |
| `EntityStore.InsertAssignments` | src/main/java/com/spring/JpaRelationships/entity/Assignment.java:17-19 | The i-th draft is stored and returned under the i-th fresh id, in order. Exactly those keys are added and older rows are kept. The counter advances by the batch size, and when no key reaches the counter the table grows by the batch size |
| `EntityStore.InsertCourses` | src/main/java/com/spring/JpaRelationships/DataInitializer.java:22-26 | `saveAll` of courses: the i-th draft is stored under the i-th fresh course id, exactly those keys are added, older rows are kept, and only the course table and its counter change |
| `EntityStore.InsertCoursesValid` | src/main/java/com/spring/JpaRelationships/DataInitializer.java:22-26 | Inserting new courses with no students keeps the store invariant |
| `EntityStore.CoursesChangeValid` | src/main/java/com/spring/JpaRelationships/entity/Course.java:17-28 | Adding issued course rows without students, and keeping the stored ones, keeps the store invariant, including agreement of the association's two sides |
| `EntityStore.StoreBatch` | src/main/java/com/spring/JpaRelationships/service/AssignmentService.java:41 | The table after a batch insert has exactly the old keys and the fresh block; each fresh key holds its draft with that id, and other rows are kept |
| `EntityStore.StoreBatchCount` | src/main/java/com/spring/JpaRelationships/entity/Assignment.java:17-19 | When every key is below the counter, a batch insert adds one row per draft |
| `EntityStore.InsertedRows` | src/main/java/com/spring/JpaRelationships/entity/Assignment.java:17-27 | After inserting drafts owned by a stored student, every row carries its key, lies below the counter and has a stored owner |
| `EntityStore.InsertedOwned` | src/main/java/com/spring/JpaRelationships/entity/Assignment.java:24-27 | After inserting drafts owned by a student, the student owns what it owned before and exactly the fresh ids besides |
| `EntityStore.AssignmentsChangeValid` | src/main/java/com/spring/JpaRelationships/entity/Assignment.java:17-27 | Replacing the assignment table keeps the store invariant when every row carries its key, lies below the advanced counter and has a stored owner |
| `EntityStore.HeldRows` | src/main/java/com/spring/JpaRelationships/service/AssignmentService.java:26-31 | A listing holds only stored rows under the selected keys, and every such row whose key is below the counter (with issued keys, that is every stored row). When every selected key is issued and stored, it holds one entry per key |
| `EntityStore.Ascending` | src/main/java/com/spring/JpaRelationships/service/AssignmentService.java:26-28 | The listing order: exactly the selected keys within the bounds, strictly ascending |
| `EntityStore.HeldDtos` | src/main/java/com/spring/JpaRelationships/service/CourseService.java:28-32 | A mapped listing holds the DTO of every selected stored row within the counter and only DTOs of selected stored rows. Each DTO appears once per selected stored key below the counter whose row maps to it, so rows sharing a DTO each contribute an entry |
| `EntityStore.ListingMultiplicity` | src/main/java/com/spring/JpaRelationships/service/CourseService.java:28-32 | A listing of mapped rows under distinct keys holds each value as often as there are keys whose row maps to it |
| `EntityStore.HeldDtosCount` | src/main/java/com/spring/JpaRelationships/service/StudentService.java:37-43 | When every selected key is stored and issued, the mapped listing holds each DTO once per selected key whose row maps to it |
| `EntityStore.DeleteStudentCascade` | src/main/java/com/spring/JpaRelationships/entity/Student.java:33-47 | Removes the student row, and with it its address and owned assignments, and its join-table links. No course is deleted, and other rows and counters are unchanged |
| `StudentService.Save` | src/main/java/com/spring/JpaRelationships/service/StudentService.java:24-26 | The student is stored under a fresh id and reads back as the DTO. It has no courses, and an address gets the next address id. Other tables are unchanged; the address counter advances exactly when the DTO has an address, and the course and assignment counters are kept |
| `StudentService.FindAll` | src/main/java/com/spring/JpaRelationships/service/StudentService.java:28-30 | Every listed student is stored; on a store with issued keys every stored student is listed, once each |
| `StudentService.FindById` | src/main/java/com/spring/JpaRelationships/service/StudentService.java:32-35 | Ok with the stored student exactly when the id is stored, else NotFound "Student not found with id <id>" |
| `StudentService.FindAllCourses` | src/main/java/com/spring/JpaRelationships/service/StudentService.java:37-43 | NotFound for an unknown student. Otherwise each DTO comes from one of the student's courses. When keys are issued and links resolve, there is one entry per course, and a DTO appears as often as the student's courses that map to it |
| `StudentService.DeleteById` | src/main/java/com/spring/JpaRelationships/service/StudentService.java:45-51 | NotFound for an unknown id. Otherwise exactly that student is removed and it owns no assignment afterwards; every other student and every assignment it did not own is unchanged, every course remains and only loses the id from its students, and the id counters are kept |
| `StudentService.UpdateById` | src/main/java/com/spring/JpaRelationships/service/StudentService.java:53-58 | NotFound for an unknown id. Otherwise the student reads back as the DTO, with its key and courses kept. The existing address row is reused, or a new one is issued. The student, course and assignment counters are kept, and on a store with issued ids the address counter advances exactly when a new address row is issued |
| `StudentService.PatchById` | src/main/java/com/spring/JpaRelationships/service/StudentService.java:60-66 | NotFound for an unknown id. Otherwise only non-null fields change. A null address keeps the address, and a non-null one patches the existing row or creates a new one. The student, course and assignment counters are kept, and on a store with issued ids the address counter advances exactly when a new address row is created |
| `StudentService.SaveStudentPreservesValid` | src/main/java/com/spring/JpaRelationships/entity/Student.java:33-47 | Saving a new student, or one that keeps its row's courses and address id, preserves the store invariant |
| `StudentService.SavePreservesValid` | src/main/java/com/spring/JpaRelationships/service/StudentService.java:24-26 | `save` preserves the store invariant |
| `StudentService.UpdateByIdPreservesValid` | src/main/java/com/spring/JpaRelationships/service/StudentService.java:53-58 | `updateById` preserves the store invariant |
| `StudentService.PatchByIdPreservesValid` | src/main/java/com/spring/JpaRelationships/service/StudentService.java:60-66 | `patchById` preserves the store invariant |
| `StudentService.DeleteByIdPreservesValid` | src/main/java/com/spring/JpaRelationships/service/StudentService.java:45-51 | `deleteById` preserves the store invariant, including the agreement of the association's two sides |
| `StudentService.DeleteCascades` | src/main/java/com/spring/JpaRelationships/entity/Student.java:33-47 | Deleting a student removes its address row and its assignments, and keeps every course and its code and name |
| `StudentService.UpdateNullAddressRemovesOrphan` | src/main/java/com/spring/JpaRelationships/entity/Student.java:33 | A full update with a null address leaves the student without one and removes the old address row |
| `StudentService.SaveThenFind` | src/main/java/com/spring/JpaRelationships/service/StudentService.java:24-35 | A saved student is found under its new id and reads back as its DTO |
| `StudentService.DeleteThenFind` | src/main/java/com/spring/JpaRelationships/service/StudentService.java:32-51 | A deleted student is no longer found |
| `StudentService.EmptyPatchIsNoOp` | src/main/java/com/spring/JpaRelationships/service/StudentService.java:60-66 | On a valid store, a patch with an all-null DTO returns the student unchanged and leaves the whole store as it was |
| `CourseService.FindById` | src/main/java/com/spring/JpaRelationships/service/CourseService.java:23-26 | Ok with the stored course exactly when the id is stored, else NotFound "Course not found" |
| `CourseService.FindAll` | src/main/java/com/spring/JpaRelationships/service/CourseService.java:28-32 | Each DTO comes from a stored course. With issued keys there is one entry per stored course, a DTO appears as often as the stored courses that map to it, and an empty table gives an empty list |
| `CourseService.FindAllStudents` | src/main/java/com/spring/JpaRelationships/service/CourseService.java:34-40 | NotFound for an unknown course. Otherwise each DTO comes from one of the course's students. When keys are issued and links resolve, there is one entry per student, and a DTO appears as often as the course's students that map to it |
| `AssignmentService.FindAll` | src/main/java/com/spring/JpaRelationships/service/AssignmentService.java:26-28 | Every listed assignment is stored; with issued keys every stored assignment is listed, once each |
| `AssignmentService.FindAllByStudentId` | src/main/java/com/spring/JpaRelationships/service/AssignmentService.java:30-32 | Lists only assignments the student owns, and with issued keys all of them, once each. An unknown student gets an empty list, not an error |
| `AssignmentService.FindById` | src/main/java/com/spring/JpaRelationships/service/AssignmentService.java:72-75 | Ok with the stored assignment exactly when the id is stored, else NotFound "Assignment not found with id <id>" |
| `AssignmentService.SaveAll` | src/main/java/com/spring/JpaRelationships/service/AssignmentService.java:34-42 | NotFound for an unknown student. Otherwise one new assignment is returned per DTO. Exactly the keys of a block of consecutive fresh ids are added, and only the assignment table and its counter change |
| `AssignmentService.Drafts` | src/main/java/com/spring/JpaRelationships/service/AssignmentService.java:37-39 | One unsaved assignment per DTO, in order, each the mapper's entity for that DTO and owner |
| `AssignmentService.SaveAllStores` | src/main/java/com/spring/JpaRelationships/service/AssignmentService.java:34-42 | The i-th DTO is stored and returned as the row under the i-th fresh id, owned by the student and reading back as the DTO |
| `AssignmentService.DraftsStored` | src/main/java/com/spring/JpaRelationships/service/AssignmentService.java:37-41 | Inserting the mapped drafts stores and returns, under the i-th fresh id, a row owned by the given student that reads back as the i-th DTO |
| `AssignmentService.SaveAllKeeps` | src/main/java/com/spring/JpaRelationships/service/AssignmentService.java:41 | With issued keys, the rows stored before are kept unchanged and the table grows by exactly one row per DTO |
| `AssignmentService.SaveAllOwns` | src/main/java/com/spring/JpaRelationships/service/AssignmentService.java:30-42 | After `saveAll` the student owns exactly what it owned before plus the new ids, so `findAllByStudentId` lists both |
| `AssignmentService.DeleteById` | src/main/java/com/spring/JpaRelationships/service/AssignmentService.java:44-50 | NotFound for an unknown id; otherwise exactly that assignment is removed, and every id counter is kept |
| `AssignmentService.DeleteAllByStudentId` | src/main/java/com/spring/JpaRelationships/service/AssignmentService.java:52-56 | NotFound for an unknown student. Otherwise exactly the student's assignments are removed, other rows are unchanged, and every id counter is kept |
| `AssignmentService.UpdateAssignment` | src/main/java/com/spring/JpaRelationships/service/AssignmentService.java:58-63 | NotFound for an unknown id. Otherwise title and due date become the DTO's, a null due date clearing it, id and owner are kept, every id counter is kept, and the merged row is written back (the intended behaviour, see Findings) |
| `AssignmentService.PatchAssignment` | src/main/java/com/spring/JpaRelationships/service/AssignmentService.java:65-70 | NotFound for an unknown id. Otherwise only non-null DTO fields are written, id and owner are kept, every id counter is kept, and the merged row is written back (the intended behaviour, see Findings) |
| `AssignmentService.SaveAllPreservesValid` | src/main/java/com/spring/JpaRelationships/service/AssignmentService.java:34-42 | `saveAll` preserves the store invariant: fresh ids match keys and every new assignment has a stored owner |
| `AssignmentService.DeleteByIdPreservesValid` | src/main/java/com/spring/JpaRelationships/service/AssignmentService.java:44-50 | `deleteById` preserves the store invariant |
| `AssignmentService.DeleteAllByStudentIdPreservesValid` | src/main/java/com/spring/JpaRelationships/service/AssignmentService.java:52-56 | `deleteAllByStudentId` preserves the store invariant |
| `AssignmentService.UpdateAssignmentPreservesValid` | src/main/java/com/spring/JpaRelationships/service/AssignmentService.java:58-63 | `updateAssignment` preserves the store invariant |
| `AssignmentService.PatchAssignmentPreservesValid` | src/main/java/com/spring/JpaRelationships/service/AssignmentService.java:65-70 | `patchAssignment` preserves the store invariant |
| `AssignmentService.UpdateAssignmentUnflushed` | src/main/java/com/spring/JpaRelationships/service/AssignmentService.java:58-63 | As written: NotFound for an unknown id; otherwise the response is the merged assignment while the store keeps its old row |
| `AssignmentService.PatchAssignmentUnflushed` | src/main/java/com/spring/JpaRelationships/service/AssignmentService.java:65-70 | As written: NotFound for an unknown id; otherwise the response is the patched assignment while the store keeps its old row |
| `AssignmentService.UnflushedUpdateIsLost` | src/main/java/com/spring/JpaRelationships/service/AssignmentService.java:58-63 | As written, an update that changes a field responds with the new fields while a later `findById` returns the old row |
| `AssignmentService.UnflushedPatchIsLost` | src/main/java/com/spring/JpaRelationships/service/AssignmentService.java:65-70 | As written, a patch carrying a field that differs from the stored one responds with it while a later `findById` returns the old row |
| `AssignmentService.UpdateThenFind` | src/main/java/com/spring/JpaRelationships/service/AssignmentService.java:58-63 | With the write-back, a later `findById` returns exactly the assignment the update responded with |
| `AssignmentService.PatchThenFind` | src/main/java/com/spring/JpaRelationships/service/AssignmentService.java:65-70 | With the write-back, a later `findById` returns exactly the assignment the patch responded with |
| `AssignmentService.NothingOwnedAfterDelete` | src/main/java/com/spring/JpaRelationships/service/AssignmentService.java:52-56 | After `deleteAllByStudentId`, or after deleting the student, the student's assignment list is empty |
| `AssignmentService.EmptyPatchIsNoOp` | src/main/java/com/spring/JpaRelationships/service/AssignmentService.java:65-70 | A patch with an all-null DTO returns the assignment unchanged and leaves the store as it was |
| `EnrollmentService.SaveStudentAndCourse` | src/main/java/com/spring/JpaRelationships/service/EnrollmentService.java:42-45 | Writes both rows back under their keys and changes nothing else |
| `EnrollmentService.Enroll` | src/main/java/com/spring/JpaRelationships/service/EnrollmentService.java:30-40 | The student lookup fails first, then the course lookup, then a link on either side is a Conflict. Success happens exactly when neither side holds the link, and leaves the pair Linked with only the two relation sets changed |
| `EnrollmentService.Unenroll` | src/main/java/com/spring/JpaRelationships/service/EnrollmentService.java:47-57 | The course lookup fails first, then the student lookup. Success happens exactly when both sides hold the link, and leaves the pair Unlinked with only the two relation sets changed; otherwise it is NotFound |
| `EnrollmentService.StudentSideDecidesConflict` | src/main/java/com/spring/JpaRelationships/service/EnrollmentService.java:35 | When the sides agree, the student side alone decides a Conflict, and enroll or unenroll succeeds exactly when the pair is not or is linked |
| `EnrollmentService.EnrollPreservesValid` | src/main/java/com/spring/JpaRelationships/service/EnrollmentService.java:30-45 | Enrollment preserves the store invariant, including agreement of both sides |
| `EnrollmentService.UnenrollPreservesValid` | src/main/java/com/spring/JpaRelationships/service/EnrollmentService.java:42-57 | Unenrollment preserves the store invariant |
| `EnrollmentService.RepeatedCallsFail` | src/main/java/com/spring/JpaRelationships/service/EnrollmentService.java:35-55 | A second enroll of the same pair is a Conflict; a second unenroll is NotFound |
| `EnrollmentService.EnrollUnenrollInverse` | src/main/java/com/spring/JpaRelationships/service/EnrollmentService.java:30-57 | Unenroll after a successful enroll restores the store exactly, and so does enroll after a successful unenroll |
| `DataInitializer.SeedCourses` | src/main/java/com/spring/JpaRelationships/DataInitializer.java:22-26 | The three seed courses are unsaved, have no students, and map back to the DTOs JV Java, SB Spring Boot and JS Java Script |
| `DataInitializer.Seed` | src/main/java/com/spring/JpaRelationships/DataInitializer.java:20-28 | With courses present nothing changes. With none, exactly three courses are added under the next three ids, with the seed codes and names and no students, and nothing else changes but the course counter |
| `DataInitializer.SeedPreservesValid` | src/main/java/com/spring/JpaRelationships/DataInitializer.java:20-28 | Seeding keeps the store invariant |
| `DataInitializer.SeedIdempotent` | src/main/java/com/spring/JpaRelationships/DataInitializer.java:21 | A second run of the initializer changes nothing, since the first leaves the course table non-empty |
| `Application.Step` | src/main/java/com/spring/JpaRelationships/service/EnrollmentService.java:30 | A failed call leaves the store unchanged; a successful one commits its result |
| `Application.StepPreservesValid` | src/main/java/com/spring/JpaRelationships/service/EnrollmentService.java:30-57 | Every call, failed or successful, preserves the store invariant |
| `Application.ApplyPreservesValid` | src/main/java/com/spring/JpaRelationships/service/StudentService.java:24-66 | Every committed call, whatever the service, preserves the store invariant |
| `Application.RunPreservesValid` | src/main/java/com/spring/JpaRelationships/service/StudentService.java:24-66 | Every sequence of calls from a valid store ends in a valid store |
| `Application.ReachableIsValid` | src/main/java/com/spring/JpaRelationships/entity/Student.java:33-47 | From the empty database, after any sequence of calls and seedings, the store invariant holds and the association's two sides agree |
| `Application.SaveThenEnroll` | src/main/java/com/spring/JpaRelationships/service/EnrollmentService.java:30-40 | A newly saved student can be enrolled in a stored course that does not list its id, and the pair is then Linked |
| `Application.SeedSaveEnroll` | src/main/java/com/spring/JpaRelationships/DataInitializer.java:20-28 | On a store without courses, seeding, saving a student and enrolling it in the first seeded course all succeed and leave the pair Linked |
| `Application.EnrollmentReachable` | src/main/java/com/spring/JpaRelationships/service/EnrollmentService.java:30-40 | From the empty database, seeding, saving a first student and enrolling it in course 1 leaves student 1 and course 1 Linked, so the invariant is not vacuous about enrolments |

## Left out

- HTTP controllers, DTO validation, JSON (de)serialisation annotations and the
  `MappingQualifiers` annotation types are not modelled. They select mappers or
  shape the wire format and make no decisions of their own.
- `DataInitializer` runs once at start-up; the model makes its run a
  command, `Initialize`, that may occur anywhere in a sequence. Its guard
  makes every later run a no-op (`DataInitializer.SeedIdempotent`).
- A null DTO argument is not modelled: the generated update and patch
  mappers return early on a null DTO, and `saveAll` with a null list throws
  a `NullPointerException`. Every DTO reaches the services through a
  required `@RequestBody`, so these cases do not arise.
- The auditing timestamps `createdAt`/`updatedAt` are not modelled, because
  they come from a clock.
- Transactions and concurrency are reduced to one rule: a call that fails
  keeps the old store. Concurrent enrollments of the same pair are not
  modelled.
- `Long` ids are unbounded integers, so IDENTITY counter overflow is not
  modelled.
- Lazy fetching is not modelled; every relation is read eagerly.
- No service operation deletes a course, so no course deletion is modelled.
  The lemma `StudentService.DeleteCascades` states that deleting a student
  never deletes a course.
- Deleting a student also removes it from every course's `students`. This
  stands for the ORM deleting the student's rows of the `student_course` join
  table, which the student side owns. It is an assumption about the
  persistence engine, not something the service code does.
- `updateAssignment` and `patchAssignment` never call `save`, and neither
  they nor their controller methods are `@Transactional`. The write-back in
  `AssignmentService.UpdateAssignment` and `PatchAssignment` assumes a
  caller's transaction whose dirty checking flushes the change, and no code
  on the request path provides one. The as-written behaviour is recorded
  under "## Findings".
- For the generated MapStruct code, the model assumes the following. A
  non-null DTO address merged into a student without an address first
  creates a `new Address()`. A full update with a null DTO address sets the
  address to null.
- The Lombok equality keeps only the id. Two instances that were never saved
  therefore compare equal, since both ids are null. The model follows the
  code here, not the reading that such instances are never equal.
- The Conflict message is the code's "Course already exist for this
  student.", not the grammatical variant.
- Assignments and addresses use Dafny's structural equality. For an
  assignment this is the same as the `@Data` all-field equality in the code.
- StudentService.FindAll: the contract states membership and count, not the
  ascending-id order of the listing. The order is fixed by the definition.
- CourseService.FindAll: the contract states membership and count, not the
  ascending-id order of the listing. The order is fixed by the definition.
- AssignmentService.FindAll: the contract states membership and count, not
  the ascending-id order of the listing. The order is fixed by the
  definition.

## Findings

| source | as written | input that shows it | evidently intended | confidence | as-written member | corrected member |
|---|---|---|---|---|---|---|
| src/main/java/com/spring/JpaRelationships/service/AssignmentService.java:58-63 | `updateAssignment` merges the DTO into the entity `findById` loaded and returns it, with no `save` and no transaction, so the change is never flushed | a stored assignment titled "A" and a PUT whose DTO has title "B": the response says "B", a later read still says "A" | the merged assignment is written back, as `updateById` does for students with `save` | medium, not executed; it depends on no transaction being open around the call, which holds on the request path | `AssignmentService.UnflushedUpdateIsLost` | `AssignmentService.UpdateThenFind` |
| src/main/java/com/spring/JpaRelationships/service/AssignmentService.java:65-70 | `patchAssignment` patches the loaded entity and returns it, with no `save` and no transaction, so the change is never flushed | a stored assignment titled "A" and a PATCH whose DTO has title "B" and a null due date: the response says "B", a later read still says "A" | the patched assignment is written back, as `patchById` does for students with `save` | medium, not executed; it depends on no transaction being open around the call, which holds on the request path | `AssignmentService.UnflushedPatchIsLost` | `AssignmentService.PatchThenFind` |

=== FILE: application.dfy ===
/** The services as one application: the start-up seeding and every
    state-changing call a client can make, applied one after another. A
    call runs in its own transaction, so a call that fails leaves the store
    as it was and the next call sees the unchanged store. */
module Application {
  import opened Wrappers
  import opened Entities
  import opened EntityStore
  import StudentService
  import AssignmentService
  import EnrollmentService
  import DataInitializer

  /** A client call, or `Initialize`: the start-up run of the data
      initializer. */
  datatype Command =
    | Initialize
    | SaveStudent(dto: StudentDto)
    | UpdateStudent(id: Id, dto: StudentDto)
    | PatchStudent(id: Id, dto: StudentDto)
    | DeleteStudent(id: Id)
    | SaveAssignments(studentId: Id, dtos: seq<AssignmentDto>)
    | UpdateAssignment(id: Id, assignment: AssignmentDto)
    | PatchAssignment(id: Id, assignment: AssignmentDto)
    | DeleteAssignment(id: Id)
    | DeleteAssignmentsOf(studentId: Id)
    | Enroll(studentId: Id, courseId: Id)
    | Unenroll(studentId: Id, courseId: Id)

  /** The store a call commits, or the error it rolls back with. */
  function Apply(st: Store, cmd: Command): Result<Store> {
    match cmd
    case Initialize => Ok(DataInitializer.Seed(st))
    case SaveStudent(dto) => Ok(StudentService.Save(st, dto).0)
    case UpdateStudent(id, dto) =>
      var r :- StudentService.UpdateById(st, id, dto); Ok(r.0)
    case PatchStudent(id, dto) =>
      var r :- StudentService.PatchById(st, id, dto); Ok(r.0)
    case DeleteStudent(id) => StudentService.DeleteById(st, id)
    case SaveAssignments(sid, dtos) =>
      var r :- AssignmentService.SaveAll(st, sid, dtos); Ok(r.0)
    case UpdateAssignment(id, dto) =>
      var r :- AssignmentService.UpdateAssignment(st, id, dto); Ok(r.0)
    case PatchAssignment(id, dto) =>
      var r :- AssignmentService.PatchAssignment(st, id, dto); Ok(r.0)
    case DeleteAssignment(id) => AssignmentService.DeleteById(st, id)
    case DeleteAssignmentsOf(sid) => AssignmentService.DeleteAllByStudentId(st, sid)
    case Enroll(sid, cid) => EnrollmentService.Enroll(st, sid, cid)
    case Unenroll(sid, cid) => EnrollmentService.Unenroll(st, sid, cid)
  }

  /** One call: commit on success, roll back on failure. */
  function Step(st: Store, cmd: Command): (r: Store)
    ensures Apply(st, cmd).Err? ==> r == st
    ensures Apply(st, cmd).Ok? ==> r == Apply(st, cmd).value
  {
    match Apply(st, cmd)
    case Ok(st') => st'
    case Err(_) => st
  }

  /** A sequence of calls, each on the store the previous one left. */
  function Run(st: Store, cmds: seq<Command>): Store
    decreases |cmds|
  {
    if cmds == [] then st else Run(Step(st, cmds[0]), cmds[1..])
  }

  /** Every call, successful or not, keeps the store invariant. */
  lemma StepPreservesValid(st: Store, cmd: Command)
    requires Valid(st)
    ensures Valid(Step(st, cmd))
  {
    if Apply(st, cmd).Ok? {
      ApplyPreservesValid(st, cmd);
    }
  }

  /** A committed call keeps the store invariant: each service operation's
      own preservation lemma, by the kind of call. */
  lemma ApplyPreservesValid(st: Store, cmd: Command)
    requires Valid(st) && Apply(st, cmd).Ok?
    ensures Valid(Apply(st, cmd).value)
  {
    if cmd.Initialize? {
      DataInitializer.SeedPreservesValid(st);
    } else if cmd.SaveStudent? || cmd.UpdateStudent? || cmd.PatchStudent? || cmd.DeleteStudent? {
      StudentCallPreservesValid(st, cmd);
    } else if cmd.Enroll? || cmd.Unenroll? {
      EnrollmentCallPreservesValid(st, cmd);
    } else {
      AssignmentCallPreservesValid(st, cmd);
    }
  }

  lemma StudentCallPreservesValid(st: Store, cmd: Command)
    requires cmd.SaveStudent? || cmd.UpdateStudent? || cmd.PatchStudent? || cmd.DeleteStudent?
    requires Valid(st) && Apply(st, cmd).Ok?
    ensures Valid(Apply(st, cmd).value)
  {
    match cmd
    case SaveStudent(dto) => StudentService.SavePreservesValid(st, dto);
    case UpdateStudent(id, dto) => StudentService.UpdateByIdPreservesValid(st, id, dto);
    case PatchStudent(id, dto) => StudentService.PatchByIdPreservesValid(st, id, dto);
    case DeleteStudent(id) => StudentService.DeleteByIdPreservesValid(st, id);
  }

  lemma AssignmentCallPreservesValid(st: Store, cmd: Command)
    requires cmd.SaveAssignments? || cmd.UpdateAssignment? || cmd.PatchAssignment?
             || cmd.DeleteAssignment? || cmd.DeleteAssignmentsOf?
    requires Valid(st) && Apply(st, cmd).Ok?
    ensures Valid(Apply(st, cmd).value)
  {
    match cmd
    case SaveAssignments(sid, dtos) => AssignmentService.SaveAllPreservesValid(st, sid, dtos);
    case UpdateAssignment(id, dto) => AssignmentService.UpdateAssignmentPreservesValid(st, id, dto);
    case PatchAssignment(id, dto) => AssignmentService.PatchAssignmentPreservesValid(st, id, dto);
    case DeleteAssignment(id) => AssignmentService.DeleteByIdPreservesValid(st, id);
    case DeleteAssignmentsOf(sid) => AssignmentService.DeleteAllByStudentIdPreservesValid(st, sid);
  }

  lemma EnrollmentCallPreservesValid(st: Store, cmd: Command)
    requires cmd.Enroll? || cmd.Unenroll?
    requires Valid(st) && Apply(st, cmd).Ok?
    ensures Valid(Apply(st, cmd).value)
  {
    match cmd
    case Enroll(sid, cid) => EnrollmentService.EnrollPreservesValid(st, sid, cid);
    case Unenroll(sid, cid) => EnrollmentService.UnenrollPreservesValid(st, sid, cid);
  }

  /** From the empty database, after any sequence of calls: ids match keys,
      every link is seen from both sides and resolves, addresses are never
      shared and every assignment has a stored owner. */
  lemma {:induction false} RunPreservesValid(st: Store, cmds: seq<Command>)
    requires Valid(st)
    ensures Valid(Run(st, cmds))
    decreases |cmds|
  {
    if cmds != [] {
      StepPreservesValid(st, cmds[0]);
      RunPreservesValid(Step(st, cmds[0]), cmds[1..]);
    }
  }

  lemma ReachableIsValid(cmds: seq<Command>)
    ensures Valid(Run(Empty, cmds))
    ensures Symmetric(Run(Empty, cmds))
  {
    EmptyIsValid();
    RunPreservesValid(Empty, cmds);
  }

  /** A newly saved student can be enrolled in any stored course that does
      not already list the new id (on a valid store, none does). */
  lemma SaveThenEnroll(st: Store, dto: StudentDto, cid: Id)
    requires cid in st.courses && st.nextStudentId !in st.courses[cid].students
    ensures var saved := Step(st, SaveStudent(dto));
            Linked(Step(saved, Enroll(st.nextStudentId, cid)), st.nextStudentId, cid)
  {
    var saved := Step(st, SaveStudent(dto));
    var sid := st.nextStudentId;
    assert saved == StudentService.Save(st, dto).0;
    assert sid in saved.students && saved.students[sid].courses == {};
    assert saved.courses[cid] == st.courses[cid];
    assert sid !in saved.courses[cid].students;
    assert EnrollmentService.Enroll(saved, sid, cid).Ok?;
  }

  /** On a store without courses, the start-up seeding, then the saving of
      a student, then the enrolment of that student in the first seeded
      course all succeed, and the pair ends up Linked. */
  lemma SeedSaveEnroll(st: Store, dto: StudentDto)
    requires st.courses == map[]
    ensures var cmds := [Initialize, SaveStudent(dto), Enroll(st.nextStudentId, st.nextCourseId)];
            Linked(Run(st, cmds), st.nextStudentId, st.nextCourseId)
  {
    var sid, cid := st.nextStudentId, st.nextCourseId;
    var cmds := [Initialize, SaveStudent(dto), Enroll(sid, cid)];
    var s1 := Step(st, Initialize);
    var s2 := Step(s1, SaveStudent(dto));
    var s3 := Step(s2, Enroll(sid, cid));
    assert s1 == DataInitializer.Seed(st);
    assert cid in s1.courses && s1.courses[cid].students == {} && s1.nextStudentId == sid;
    SaveThenEnroll(s1, dto, cid);
    assert Run(s2, cmds[2..]) == s3 by {
      assert cmds[2..][1..] == [];
    }
    assert Run(s1, cmds[1..]) == Run(s2, cmds[2..]) by {
      assert cmds[1..][0] == SaveStudent(dto) && cmds[1..][1..] == cmds[2..];
    }
  }

  /** Enrolment is reachable from the empty database: seed, save a first
      student, enrol it in the first seeded course. */
  lemma EnrollmentReachable(dto: StudentDto)
    ensures Linked(Run(Empty, [Initialize, SaveStudent(dto), Enroll(1, 1)]), 1, 1)
  {
    SeedSaveEnroll(Empty, dto);
  }
}

=== FILE: assignment_service.dfy ===
/** `AssignmentService`: assignments and their owning student. Calls that
    name an assignment fail with NotFound "Assignment not found with id
    <id>"; calls that name a student validate it through the student
    service and fail with its message. */
module AssignmentService {
  import opened Wrappers
  import opened Entities
  import opened Mappers
  import opened EntityStore
  import StudentService

  function NotFoundMessage(id: Id): string {
    "Assignment not found with id " + IdToString(id)
  }

  /** `findAll`: every stored assignment once. */
  function FindAll(st: Store): (r: seq<Assignment>)
    ensures forall a | a in r :: a in st.assignments.Values
    ensures IdsIssued(st) ==>
              |r| == |st.assignments| && forall k | k in st.assignments :: st.assignments[k] in r
  {
    HeldRows(st.assignments, st.assignments.Keys, st.nextAssignmentId)
  }

  /** `findAllByStudentId`: exactly the assignments the student owns; an
      unknown student owns none, which is an empty list and not an error. */
  function FindAllByStudentId(st: Store, sid: Id): (r: seq<Assignment>)
    ensures forall a | a in r :: a.student == Some(sid) && a in st.assignments.Values
    ensures IdsIssued(st) ==> |r| == |OwnedAssignments(st, sid)|
    ensures IdsIssued(st) ==>
              forall k | k in st.assignments && st.assignments[k].student == Some(sid) :: st.assignments[k] in r
    ensures AssignmentsOwned(st) && sid !in st.students ==> r == []
  {
    var owned := OwnedAssignments(st, sid);
    var rows := HeldRows(st.assignments, owned, st.nextAssignmentId);
    forall a | a in rows ensures a.student == Some(sid) && a in st.assignments.Values {
      var k :| k in owned && k in st.assignments && st.assignments[k] == a;
    }
    rows
  }

  /** `findById` (private): the stored assignment, or NotFound. */
  function FindById(st: Store, id: Id): (r: Result<Assignment>)
    ensures r.Ok? <==> id in st.assignments
    ensures r.Ok? ==> r.value == st.assignments[id]
    ensures r.Err? ==> r.error == NotFound(NotFoundMessage(id))
  {
    if id in st.assignments then Ok(st.assignments[id]) else Err(NotFound(NotFoundMessage(id)))
  }

  /** `saveAll`: validates the student once, then stores one new assignment
      per DTO, in order, each owned by that student and holding the DTO's
      title and due date under a fresh id. */
  function SaveAll(st: Store, sid: Id, dtos: seq<AssignmentDto>): (r: Result<(Store, seq<Assignment>)>)
    ensures r.Ok? <==> sid in st.students
    ensures r.Err? ==> r.error == NotFound(StudentService.NotFoundMessage(sid))
    ensures r.Ok? ==> |r.value.1| == |dtos|
    ensures r.Ok? ==> r.value.0 == st.(assignments := r.value.0.assignments,
                                       nextAssignmentId := st.nextAssignmentId + |dtos|)
    ensures r.Ok? ==> forall k :: k in r.value.0.assignments <==>
              k in st.assignments || st.nextAssignmentId <= k < st.nextAssignmentId + |dtos|
  {
    var found :- StudentService.FindById(st, sid);
    Ok(InsertAssignments(st, Drafts(dtos, found)))
  }

  /** The i-th DTO becomes the row under the i-th fresh id, owned by the
      student and holding the DTO's fields; that row is what is returned. */
  lemma SaveAllStores(st: Store, sid: Id, dtos: seq<AssignmentDto>)
    requires SaveAll(st, sid, dtos).Ok?
    ensures var r := SaveAll(st, sid, dtos).value;
            forall i | 0 <= i < |dtos| ::
              && r.1[i].id == Some(st.nextAssignmentId + i)
              && r.1[i].student == st.students[sid].id
              && AssignmentView(r.1[i]) == dtos[i]
              && r.0.assignments[st.nextAssignmentId + i] == r.1[i]
  {
    SaveAllInserts(st, sid, dtos);
    DraftsStored(st, dtos, st.students[sid]);
  }

  /** Inserting the drafts of `dtos` stores and returns, under the i-th
      fresh id, a row owned by `owner` that reads back as the i-th DTO. */
  lemma DraftsStored(st: Store, dtos: seq<AssignmentDto>, owner: Student)
    ensures var r := InsertAssignments(st, Drafts(dtos, owner));
            forall i | 0 <= i < |dtos| ::
              && r.1[i].id == Some(st.nextAssignmentId + i)
              && r.1[i].student == owner.id
              && AssignmentView(r.1[i]) == dtos[i]
              && r.0.assignments[st.nextAssignmentId + i] == r.1[i]
  {
    var drafts := Drafts(dtos, owner);
    var r := InsertAssignments(st, drafts);
    forall i | 0 <= i < |dtos|
      ensures r.1[i].student == owner.id && AssignmentView(r.1[i]) == dtos[i]
    {
      var e := AssignmentToEntity(dtos[i], owner);
      assert drafts[i] == e;
      assert r.1[i] == e.(id := Some(st.nextAssignmentId + i));
    }
  }

  /** A successful `saveAll` is the batch insert of the drafts. */
  lemma SaveAllInserts(st: Store, sid: Id, dtos: seq<AssignmentDto>)
    requires SaveAll(st, sid, dtos).Ok?
    ensures SaveAll(st, sid, dtos).value == InsertAssignments(st, Drafts(dtos, st.students[sid]))
  {
  }

  /** The rows stored before are kept as they were, so the table grows by
      exactly one row per DTO. */
  lemma SaveAllKeeps(st: Store, sid: Id, dtos: seq<AssignmentDto>)
    requires IdsIssued(st) && SaveAll(st, sid, dtos).Ok?
    ensures var st' := SaveAll(st, sid, dtos).value.0;
            && |st'.assignments| == |st.assignments| + |dtos|
            && forall k | k in st.assignments :: st'.assignments[k] == st.assignments[k]
  {
  }

  /** One unsaved assignment per DTO, in order, all owned by `owner`. */
  function Drafts(dtos: seq<AssignmentDto>, owner: Student): (r: seq<Assignment>)
    ensures |r| == |dtos|
    ensures forall i | 0 <= i < |dtos| :: r[i] == AssignmentToEntity(dtos[i], owner)
  {
    if dtos == [] then [] else [AssignmentToEntity(dtos[0], owner)] + Drafts(dtos[1..], owner)
  }

  /** `deleteById`: removes exactly the given assignment, or fails NotFound. */
  function DeleteById(st: Store, id: Id): (r: Result<Store>)
    ensures r.Ok? <==> id in st.assignments
    ensures r.Err? ==> r.error == NotFound(NotFoundMessage(id))
    ensures r.Ok? ==>
              && r.value.assignments.Keys == st.assignments.Keys - {id}
              && (forall k | k in r.value.assignments :: r.value.assignments[k] == st.assignments[k])
              && r.value.students == st.students && r.value.courses == st.courses
    ensures r.Ok? ==> r.value.nextStudentId == st.nextStudentId && r.value.nextCourseId == st.nextCourseId
                      && r.value.nextAssignmentId == st.nextAssignmentId && r.value.nextAddressId == st.nextAddressId
  {
    if id in st.assignments then Ok(st.(assignments := st.assignments - {id}))
    else Err(NotFound(NotFoundMessage(id)))
  }

  /** `deleteAllByStudentId`: validates the student, then removes every
      assignment it owns and nothing else. */
  function DeleteAllByStudentId(st: Store, sid: Id): (r: Result<Store>)
    ensures r.Ok? <==> sid in st.students
    ensures r.Err? ==> r.error == NotFound(StudentService.NotFoundMessage(sid))
    ensures r.Ok? ==>
              && OwnedAssignments(r.value, sid) == {}
              && (forall k :: k in r.value.assignments <==> k in st.assignments && k !in OwnedAssignments(st, sid))
              && (forall k | k in r.value.assignments :: r.value.assignments[k] == st.assignments[k])
              && r.value.students == st.students && r.value.courses == st.courses
    ensures r.Ok? ==> r.value.nextStudentId == st.nextStudentId && r.value.nextCourseId == st.nextCourseId
                      && r.value.nextAssignmentId == st.nextAssignmentId && r.value.nextAddressId == st.nextAddressId
  {
    var _ :- StudentService.FindById(st, sid);
    Ok(st.(assignments := map k | k in st.assignments && st.assignments[k].student != Some(sid) :: st.assignments[k]))
  }

  /** `updateAssignment`: title and due date become the DTO's, null
      included; id and owner are kept. */
  function UpdateAssignment(st: Store, id: Id, dto: AssignmentDto): (r: Result<(Store, Assignment)>)
    ensures r.Ok? <==> id in st.assignments
    ensures r.Err? ==> r.error == NotFound(NotFoundMessage(id))
    ensures r.Ok? ==>
              var (st', a) := r.value;
              && AssignmentView(a) == dto
              && a.id == st.assignments[id].id && a.student == st.assignments[id].student
              && st'.assignments == st.assignments[id := a]
              && st'.students == st.students && st'.courses == st.courses
    ensures r.Ok? ==> var st' := r.value.0;
              && st'.nextStudentId == st.nextStudentId && st'.nextCourseId == st.nextCourseId
              && st'.nextAssignmentId == st.nextAssignmentId && st'.nextAddressId == st.nextAddressId
  {
    var found :- FindById(st, id);
    var updated := UpdateAssignmentFromDto(dto, found);
    Ok((st.(assignments := st.assignments[id := updated]), updated))
  }

  /** `patchAssignment`: only the DTO's non-null fields are written; id and
      owner are kept. */
  function PatchAssignment(st: Store, id: Id, dto: AssignmentDto): (r: Result<(Store, Assignment)>)
    ensures r.Ok? <==> id in st.assignments
    ensures r.Err? ==> r.error == NotFound(NotFoundMessage(id))
    ensures r.Ok? ==>
              var (st', a) := r.value;
              var current := st.assignments[id];
              && Patched(a.title, dto.title, current.title) && Patched(a.dueDate, dto.dueDate, current.dueDate)
              && a.id == current.id && a.student == current.student
              && st'.assignments == st.assignments[id := a]
              && st'.students == st.students && st'.courses == st.courses
    ensures r.Ok? ==> var st' := r.value.0;
              && st'.nextStudentId == st.nextStudentId && st'.nextCourseId == st.nextCourseId
              && st'.nextAssignmentId == st.nextAssignmentId && st'.nextAddressId == st.nextAddressId
  {
    var found :- FindById(st, id);
    var patched := PatchAssignmentFromDto(dto, found);
    Ok((st.(assignments := st.assignments[id := patched]), patched))
  }

  // --------------------------------------------------------------- lemmas

  lemma SaveAllPreservesValid(st: Store, sid: Id, dtos: seq<AssignmentDto>)
    requires Valid(st) && SaveAll(st, sid, dtos).Ok?
    ensures Valid(SaveAll(st, sid, dtos).value.0)
  {
    var st' := SaveAll(st, sid, dtos).value.0;
    var drafts := Drafts(dtos, st.students[sid]);
    SaveAllInserts(st, sid, dtos);
    InsertedRows(st, drafts, sid);
    AssignmentsChangeValid(st, st'.assignments, st'.nextAssignmentId);
  }

  lemma DeleteByIdPreservesValid(st: Store, id: Id)
    requires Valid(st) && DeleteById(st, id).Ok?
    ensures Valid(DeleteById(st, id).value)
  {
  }

  lemma DeleteAllByStudentIdPreservesValid(st: Store, sid: Id)
    requires Valid(st) && DeleteAllByStudentId(st, sid).Ok?
    ensures Valid(DeleteAllByStudentId(st, sid).value)
  {
  }

  lemma UpdateAssignmentPreservesValid(st: Store, id: Id, dto: AssignmentDto)
    requires Valid(st) && UpdateAssignment(st, id, dto).Ok?
    ensures Valid(UpdateAssignment(st, id, dto).value.0)
  {
  }

  lemma PatchAssignmentPreservesValid(st: Store, id: Id, dto: AssignmentDto)
    requires Valid(st) && PatchAssignment(st, id, dto).Ok?
    ensures Valid(PatchAssignment(st, id, dto).value.0)
  {
  }

  /** After `deleteAllByStudentId`, or after the student itself is deleted,
      listing the student's assignments gives nothing. */
  lemma NothingOwnedAfterDelete(st: Store, sid: Id)
    requires Valid(st)
    ensures DeleteAllByStudentId(st, sid).Ok? ==> FindAllByStudentId(DeleteAllByStudentId(st, sid).value, sid) == []
    ensures StudentService.DeleteById(st, sid).Ok? ==>
              FindAllByStudentId(StudentService.DeleteById(st, sid).value, sid) == []
  {
    if StudentService.DeleteById(st, sid).Ok? {
      StudentService.DeleteByIdPreservesValid(st, sid);
    }
  }

  /** After `saveAll` the student owns exactly what it owned before and
      the new rows, which `findAllByStudentId` then lists. */
  lemma SaveAllOwns(st: Store, sid: Id, dtos: seq<AssignmentDto>)
    requires IdsMatchKeys(st) && SaveAll(st, sid, dtos).Ok?
    ensures forall k :: k in OwnedAssignments(SaveAll(st, sid, dtos).value.0, sid) <==>
              k in OwnedAssignments(st, sid) || st.nextAssignmentId <= k < st.nextAssignmentId + |dtos|
  {
    var drafts := Drafts(dtos, st.students[sid]);
    SaveAllInserts(st, sid, dtos);
    InsertedOwned(st, drafts, sid);
  }

  /** A patch whose every field is null changes nothing. */
  lemma EmptyPatchIsNoOp(st: Store, id: Id)
    requires id in st.assignments
    ensures PatchAssignment(st, id, AssignmentDto(None, None)) == Ok((st, st.assignments[id]))
  {
    AssignmentMergeLaws(AssignmentDto(None, None), st.assignments[id]);
    assert st.assignments[id := st.assignments[id]] == st.assignments;
  }

  // ------------------------------------------------- update and patch, as written

  /* `updateAssignment` and `patchAssignment` merge the DTO into the entity
     that `findById` returned and never call `save`, and no transaction
     surrounds them on the request path, so the change is never flushed. The
     two functions below model that as-written behaviour: the caller receives
     the merged assignment and the store keeps the old row. `UpdateAssignment`
     and `PatchAssignment` above model the write-back the methods evidently
     intend, and the rest of the model uses them. */

  /** `updateAssignment` as written: the merged assignment is returned, the
      store is left as it was. */
  function UpdateAssignmentUnflushed(st: Store, id: Id, dto: AssignmentDto): (r: Result<(Store, Assignment)>)
    ensures r.Ok? <==> id in st.assignments
    ensures r.Err? ==> r.error == NotFound(NotFoundMessage(id))
    ensures r.Ok? ==>
              var (st', a) := r.value;
              && AssignmentView(a) == dto
              && a.id == st.assignments[id].id && a.student == st.assignments[id].student
              && st' == st
  {
    var found :- FindById(st, id);
    Ok((st, UpdateAssignmentFromDto(dto, found)))
  }

  /** `patchAssignment` as written: the patched assignment is returned, the
      store is left as it was. */
  function PatchAssignmentUnflushed(st: Store, id: Id, dto: AssignmentDto): (r: Result<(Store, Assignment)>)
    ensures r.Ok? <==> id in st.assignments
    ensures r.Err? ==> r.error == NotFound(NotFoundMessage(id))
    ensures r.Ok? ==>
              var (st', a) := r.value;
              var current := st.assignments[id];
              && Patched(a.title, dto.title, current.title) && Patched(a.dueDate, dto.dueDate, current.dueDate)
              && a.id == current.id && a.student == current.student
              && st' == st
  {
    var found :- FindById(st, id);
    Ok((st, PatchAssignmentFromDto(dto, found)))
  }

  /** As written, an update that changes a field is lost: the response shows
      the new fields while a later `findById` still returns the old row. */
  lemma UnflushedUpdateIsLost(st: Store, id: Id, dto: AssignmentDto)
    requires id in st.assignments && AssignmentView(st.assignments[id]) != dto
    ensures var (st', a) := UpdateAssignmentUnflushed(st, id, dto).value;
            FindById(st', id) == Ok(st.assignments[id]) && FindById(st', id).value != a
  {
  }

  /** As written, a patch with a field that differs from the stored one is
      lost in the same way. */
  lemma UnflushedPatchIsLost(st: Store, id: Id, dto: AssignmentDto)
    requires id in st.assignments
    requires (dto.title.Some? && dto.title != st.assignments[id].title)
             || (dto.dueDate.Some? && dto.dueDate != st.assignments[id].dueDate)
    ensures var (st', a) := PatchAssignmentUnflushed(st, id, dto).value;
            FindById(st', id) == Ok(st.assignments[id]) && FindById(st', id).value != a
  {
  }

  /** With the write-back, a later `findById` returns exactly the assignment
      the update responded with. */
  lemma UpdateThenFind(st: Store, id: Id, dto: AssignmentDto)
    requires id in st.assignments
    ensures var (st', a) := UpdateAssignment(st, id, dto).value;
            FindById(st', id) == Ok(a) && AssignmentView(a) == dto
  {
  }

  /** With the write-back, a later `findById` returns exactly the assignment
      the patch responded with. */
  lemma PatchThenFind(st: Store, id: Id, dto: AssignmentDto)
    requires id in st.assignments
    ensures var (st', a) := PatchAssignment(st, id, dto).value;
            FindById(st', id) == Ok(a)
            && Patched(a.title, dto.title, st.assignments[id].title)
            && Patched(a.dueDate, dto.dueDate, st.assignments[id].dueDate)
  {
  }
}

=== FILE: course_service.dfy ===
/** `CourseService`: read access to courses. An unknown course id fails with
    NotFound "Course not found". */
module CourseService {
  import opened Wrappers
  import opened Entities
  import opened Mappers
  import opened EntityStore

  const NotFoundMessage := "Course not found"

  /** `findById`: the stored course, or NotFound. */
  function FindById(st: Store, id: Id): (r: Result<Course>)
    ensures r.Ok? <==> id in st.courses
    ensures r.Ok? ==> r.value == st.courses[id]
    ensures r.Err? ==> r.error == NotFound(NotFoundMessage)
  {
    if id in st.courses then Ok(st.courses[id]) else Err(NotFound(NotFoundMessage))
  }

  /** `findAll`: the (code, name) DTO of every stored course, in id order;
      courses that share a code and name each contribute an entry. */
  function FindAll(st: Store): (r: seq<CourseDto>)
    ensures forall d | d in r :: exists c | c in st.courses :: d == CourseToDto(st.courses[c])
    ensures IdsIssued(st) ==>
              |r| == |st.courses| && forall c | c in st.courses :: CourseToDto(st.courses[c]) in r
    ensures st.courses == map[] ==> r == []
    ensures IdsIssued(st) ==>
              forall d :: multiset(r)[d] == |Matching(st.courses, st.courses.Keys, CourseToDto, d)|
  {
    HeldDtosCount(st.courses, st.courses.Keys, st.nextCourseId, CourseToDto);
    HeldDtos(st.courses, st.courses.Keys, st.nextCourseId, CourseToDto)
  }

  /** `findAllStudents`: the DTO of every student the course lists, or
      NotFound. */
  function FindAllStudents(st: Store, id: Id): (r: Result<seq<StudentDto>>)
    ensures r.Ok? <==> id in st.courses
    ensures r.Err? ==> r.error == NotFound(NotFoundMessage)
    ensures r.Ok? ==> forall d | d in r.value ::
              exists s | s in st.courses[id].students && s in st.students :: d == StudentToDto(st.students[s])
    ensures r.Ok? && IdsIssued(st) && LinksResolve(st) ==>
              |r.value| == |st.courses[id].students|
              && forall s | s in st.courses[id].students :: StudentToDto(st.students[s]) in r.value
    ensures r.Ok? && IdsIssued(st) && LinksResolve(st) ==>
              forall d :: multiset(r.value)[d] == |Matching(st.students, st.courses[id].students, StudentToDto, d)|
  {
    var course :- FindById(st, id);
    HeldDtosCount(st.students, course.students, st.nextStudentId, StudentToDto);
    Ok(HeldDtos(st.students, course.students, st.nextStudentId, StudentToDto))
  }
}

=== FILE: data_initializer.dfy ===
/** `DataInitializer`: at start-up, an empty course table is seeded with the
    three courses of the application; a table that already holds a course
    is left alone. */
module DataInitializer {
  import opened Wrappers
  import opened Entities
  import opened Mappers
  import opened EntityStore

  /** The (code, name) of the seeded courses, in the order they are saved. */
  const SeedDtos: seq<CourseDto> := [
    CourseDto(Some("JV"), Some("Java")),
    CourseDto(Some("SB"), Some("Spring Boot")),
    CourseDto(Some("JS"), Some("Java Script"))]

  /** The seed DTOs through `CourseMapper.toEntity`. */
  function SeedCourses(): (r: seq<Course>)
    ensures |r| == 3
    ensures forall i | 0 <= i < 3 :: CourseToDto(r[i]) == SeedDtos[i] && r[i].students == {}
  {
    [CourseToEntity(SeedDtos[0]), CourseToEntity(SeedDtos[1]), CourseToEntity(SeedDtos[2])]
  }

  /** `run`: when `count()` is zero, `saveAll` of the mapped seed DTOs. */
  function Seed(st: Store): (r: Store)
    ensures |st.courses| != 0 ==> r == st
    ensures |st.courses| == 0 ==>
              && (forall k :: k in r.courses <==> st.nextCourseId <= k < st.nextCourseId + 3)
              && r.nextCourseId == st.nextCourseId + 3
              && forall i | 0 <= i < 3 ::
                   && r.courses[st.nextCourseId + i].id == Some(st.nextCourseId + i)
                   && CourseToDto(r.courses[st.nextCourseId + i]) == SeedDtos[i]
                   && r.courses[st.nextCourseId + i].students == {}
    ensures r.students == st.students && r.assignments == st.assignments
    ensures r.nextStudentId == st.nextStudentId && r.nextAssignmentId == st.nextAssignmentId
    ensures r.nextAddressId == st.nextAddressId
  {
    if |st.courses| == 0 then InsertCourses(st, SeedCourses()) else st
  }

  lemma SeedPreservesValid(st: Store)
    requires Valid(st)
    ensures Valid(Seed(st))
  {
    if |st.courses| == 0 {
      InsertCoursesValid(st, SeedCourses());
    }
  }

  /** Running the initializer again changes nothing: the first run leaves
      three courses, so the guard fails. */
  lemma SeedIdempotent(st: Store)
    ensures Seed(Seed(st)) == Seed(st)
  {
    if |st.courses| == 0 {
      assert st.nextCourseId in Seed(st).courses;
    }
  }
}

=== FILE: enrollment_service.dfy ===
/** `EnrollmentService`: the many-to-many link between a student and a
    course. Per student–course pair there are two states, Unlinked and
    Linked (`Linked`); `Enroll` is the only way from Unlinked to Linked and
    `Unenroll` the only way back. Each call is one transaction: on an error
    nothing is written, so the caller keeps the store it had. */
module EnrollmentService {
  import opened Wrappers
  import opened Entities
  import opened EntityStore
  import StudentService
  import CourseService

  const AlreadyEnrolledMessage := "Course already exist for this student."

  function NotEnrolledMessage(studentId: Id): string {
    "This course doesn't contain student with id " + IdToString(studentId)
  }

  /** `saveStudentAndCourse`: both sides of the association are written
      back, since the course side alone is not persisted by the mapping. */
  function SaveStudentAndCourse(st: Store, sid: Id, s: Student, cid: Id, c: Course): (r: Store)
    ensures r.students.Keys == st.students.Keys + {sid} && r.students[sid] == s
    ensures r.courses.Keys == st.courses.Keys + {cid} && r.courses[cid] == c
    ensures forall k | k in st.students && k != sid :: r.students[k] == st.students[k]
    ensures forall k | k in st.courses && k != cid :: r.courses[k] == st.courses[k]
    ensures r.assignments == st.assignments
    ensures r.nextStudentId == st.nextStudentId && r.nextCourseId == st.nextCourseId
    ensures r.nextAssignmentId == st.nextAssignmentId && r.nextAddressId == st.nextAddressId
  {
    st.(students := st.students[sid := s], courses := st.courses[cid := c])
  }

  /** `enrollStudentToCourse`: resolves the student, then the course. The
      student-side `add` is evaluated first and a failed add short-circuits
      the course side; either failed add is a Conflict. On success the pair
      is Linked and only the two records' relation sets have changed. */
  function Enroll(st: Store, sid: Id, cid: Id): (r: Result<Store>)
    ensures sid !in st.students ==> r == Err(NotFound(StudentService.NotFoundMessage(sid)))
    ensures sid in st.students && cid !in st.courses ==> r == Err(NotFound(CourseService.NotFoundMessage))
    ensures sid in st.students && cid in st.courses
            && (cid in st.students[sid].courses || sid in st.courses[cid].students) ==>
              r == Err(Conflict(AlreadyEnrolledMessage))
    ensures r.Ok? <==> sid in st.students && cid in st.courses
                       && cid !in st.students[sid].courses && sid !in st.courses[cid].students
    ensures r.Ok? ==> Linked(r.value, sid, cid)
    ensures r.Ok? ==>
              && r.value.students == st.students[sid := st.students[sid].(courses := st.students[sid].courses + {cid})]
              && r.value.courses == st.courses[cid := st.courses[cid].(students := st.courses[cid].students + {sid})]
              && r.value.assignments == st.assignments
              && r.value.nextStudentId == st.nextStudentId && r.value.nextCourseId == st.nextCourseId
              && r.value.nextAssignmentId == st.nextAssignmentId && r.value.nextAddressId == st.nextAddressId
  {
    var student :- StudentService.FindById(st, sid);
    var course :- CourseService.FindById(st, cid);
    var (addedToStudent, courses) := SetAdd(student.courses, cid);
    if !addedToStudent then Err(Conflict(AlreadyEnrolledMessage))
    else
      var (addedToCourse, students) := SetAdd(course.students, sid);
      if !addedToCourse then Err(Conflict(AlreadyEnrolledMessage))
      else Ok(SaveStudentAndCourse(st, sid, student.(courses := courses), cid, course.(students := students)))
  }

  /** `unenrollStudentFromCourse`: resolves the course, then the student.
      Unless both sides hold the link it fails NotFound; on success the pair
      is Unlinked and only the two records' relation sets have changed. */
  function Unenroll(st: Store, sid: Id, cid: Id): (r: Result<Store>)
    ensures cid !in st.courses ==> r == Err(NotFound(CourseService.NotFoundMessage))
    ensures cid in st.courses && sid !in st.students ==> r == Err(NotFound(StudentService.NotFoundMessage(sid)))
    ensures sid in st.students && cid in st.courses && !Linked(st, sid, cid) ==>
              r == Err(NotFound(NotEnrolledMessage(sid)))
    ensures r.Ok? <==> Linked(st, sid, cid)
    ensures r.Ok? ==> sid in r.value.students && cid in r.value.courses
                      && cid !in r.value.students[sid].courses && sid !in r.value.courses[cid].students
    ensures r.Ok? ==>
              && r.value.students == st.students[sid := st.students[sid].(courses := st.students[sid].courses - {cid})]
              && r.value.courses == st.courses[cid := st.courses[cid].(students := st.courses[cid].students - {sid})]
              && r.value.assignments == st.assignments
              && r.value.nextStudentId == st.nextStudentId && r.value.nextCourseId == st.nextCourseId
              && r.value.nextAssignmentId == st.nextAssignmentId && r.value.nextAddressId == st.nextAddressId
  {
    var course :- CourseService.FindById(st, cid);
    var student :- StudentService.FindById(st, sid);
    var (removedFromStudent, courses) := SetRemove(student.courses, cid);
    if !removedFromStudent then Err(NotFound(NotEnrolledMessage(sid)))
    else
      var (removedFromCourse, students) := SetRemove(course.students, sid);
      if !removedFromCourse then Err(NotFound(NotEnrolledMessage(sid)))
      else Ok(SaveStudentAndCourse(st, sid, student.(courses := courses), cid, course.(students := students)))
  }

  // --------------------------------------------------------------- lemmas

  /** On a symmetric store the student side alone decides a Conflict. */
  lemma StudentSideDecidesConflict(st: Store, sid: Id, cid: Id)
    requires Symmetric(st) && sid in st.students && cid in st.courses
    ensures Enroll(st, sid, cid) == Err(Conflict(AlreadyEnrolledMessage)) <==> cid in st.students[sid].courses
    ensures Enroll(st, sid, cid).Ok? <==> !Linked(st, sid, cid)
    ensures Unenroll(st, sid, cid).Ok? <==> Linked(st, sid, cid)
  {
  }

  lemma EnrollPreservesValid(st: Store, sid: Id, cid: Id)
    requires Valid(st) && Enroll(st, sid, cid).Ok?
    ensures Valid(Enroll(st, sid, cid).value)
  {
    var st' := Enroll(st, sid, cid).value;
    assert AddressesExclusive(st') by {
      forall j, k | j in st'.students && k in st'.students && j != k
                    && st'.students[j].address.Some? && st'.students[k].address.Some?
        ensures st'.students[j].address.value.id != st'.students[k].address.value.id
      {
        assert st'.students[j].address == st.students[j].address;
        assert st'.students[k].address == st.students[k].address;
      }
    }
  }

  lemma UnenrollPreservesValid(st: Store, sid: Id, cid: Id)
    requires Valid(st) && Unenroll(st, sid, cid).Ok?
    ensures Valid(Unenroll(st, sid, cid).value)
  {
    var st' := Unenroll(st, sid, cid).value;
    assert AddressesExclusive(st') by {
      forall j, k | j in st'.students && k in st'.students && j != k
                    && st'.students[j].address.Some? && st'.students[k].address.Some?
        ensures st'.students[j].address.value.id != st'.students[k].address.value.id
      {
        assert st'.students[j].address == st.students[j].address;
        assert st'.students[k].address == st.students[k].address;
      }
    }
  }

  /** A second enrollment of the same pair is a Conflict, and a second
      unenrollment is NotFound. */
  lemma RepeatedCallsFail(st: Store, sid: Id, cid: Id)
    ensures Enroll(st, sid, cid).Ok? ==>
              Enroll(Enroll(st, sid, cid).value, sid, cid) == Err(Conflict(AlreadyEnrolledMessage))
    ensures Unenroll(st, sid, cid).Ok? ==>
              Unenroll(Unenroll(st, sid, cid).value, sid, cid) == Err(NotFound(NotEnrolledMessage(sid)))
  {
  }

  /** Unenroll undoes Enroll, and Enroll undoes Unenroll. */
  lemma EnrollUnenrollInverse(st: Store, sid: Id, cid: Id)
    ensures Enroll(st, sid, cid).Ok? ==> Unenroll(Enroll(st, sid, cid).value, sid, cid) == Ok(st)
    ensures Unenroll(st, sid, cid).Ok? ==> Enroll(Unenroll(st, sid, cid).value, sid, cid) == Ok(st)
  {
    if Enroll(st, sid, cid).Ok? {
      var s := st.students[sid];
      var c := st.courses[cid];
      assert s.(courses := s.courses + {cid}).(courses := s.courses + {cid} - {cid}) == s;
      assert c.(students := c.students + {sid}).(students := c.students + {sid} - {sid}) == c;
      assert Unenroll(Enroll(st, sid, cid).value, sid, cid).value.students == st.students;
      assert Unenroll(Enroll(st, sid, cid).value, sid, cid).value.courses == st.courses;
    }
    if Unenroll(st, sid, cid).Ok? {
      var s := st.students[sid];
      var c := st.courses[cid];
      assert s.(courses := s.courses - {cid}).(courses := s.courses - {cid} + {cid}) == s;
      assert c.(students := c.students - {sid}).(students := c.students - {sid} + {sid}) == c;
      assert Enroll(Unenroll(st, sid, cid).value, sid, cid).value.students == st.students;
      assert Enroll(Unenroll(st, sid, cid).value, sid, cid).value.courses == st.courses;
    }
  }
}

=== FILE: entities.dfy ===
/** The persistent entities and the transfer objects of the application.
    Relations are held as ids, never as object references: a student's
    courses and a course's students are id-sets, an assignment names its
    owner by id. Every field the source declares as a nullable reference is
    an `Option`. */
module Entities {
  import opened Wrappers

  /** A primary key (`Long`); generated keys start at 1. */
  type Id = int

  /** `java.time.LocalDate`; the model never computes with dates. */
  datatype Date = Date(year: int, month: int, day: int)

  /** An address, owned one-to-one by a student. `id` is `None` until the
      address is first persisted. */
  datatype Address = Address(
    id: Option<Id>,
    street: Option<string>,
    zipCode: Option<string>,
    city: Option<string>)

  /** A student. The owned address is held inline; the owned assignments
      are the assignments whose `student` is this id; `courses` is the
      owning side of the `student_course` join table. The audit timestamps
      are not modelled. */
  datatype Student = Student(
    id: Option<Id>,
    name: Option<string>,
    email: Option<string>,
    address: Option<Address>,
    courses: set<Id>)

  /** A course; `students` is the inverse side of `Student.courses`. */
  datatype Course = Course(
    id: Option<Id>,
    code: Option<string>,
    name: Option<string>,
    students: set<Id>)

  /** An assignment and the id of its owning student. */
  datatype Assignment = Assignment(
    id: Option<Id>,
    title: Option<string>,
    dueDate: Option<Date>,
    student: Option<Id>)

  datatype AddressDto = AddressDto(street: Option<string>, zipCode: Option<string>, city: Option<string>)

  datatype StudentDto = StudentDto(name: Option<string>, email: Option<string>, address: Option<AddressDto>)

  datatype AssignmentDto = AssignmentDto(title: Option<string>, dueDate: Option<Date>)

  datatype CourseDto = CourseDto(code: Option<string>, name: Option<string>)

  /* Lombok `@EqualsAndHashCode(onlyExplicitlyIncluded = true)` with only the
     id included: two students (courses) are equal exactly when their ids
     are, so two instances that were never saved are equal. The assignment
     uses `@Data`, i.e. equality of all fields, which is Dafny's own `==` on
     the datatype.

     A `HashSet` of entities under that equality is modelled below as the
     sequence of its elements, with the entity's id as `key`; the lemmas
     `HashSetAddIsSetAdd` and `HashSetRemoveIsSetRemove` show that it
     behaves exactly as the set of the elements' ids, which is how the
     model holds `Student.courses` and `Course.students`. */

  function StudentKey(s: Student): Option<Id> {
    s.id
  }

  function CourseKey(c: Course): Option<Id> {
    c.id
  }

  /** The ids of the elements: what the `HashSet` holds up to equality. */
  function KeySet<T(==)>(s: seq<T>, key: T -> Option<Id>): (r: set<Option<Id>>)
    ensures forall y | y in s :: key(y) in r
    ensures forall k | k in r :: exists y | y in s :: key(y) == k
  {
    set y | y in s :: key(y)
  }

  /** `HashSet.add` under id equality: an element equal to one already held
      (same id, whatever its other fields) is refused. */
  function HashSetAdd<T(==)>(s: seq<T>, x: T, key: T -> Option<Id>): (r: (bool, seq<T>))
    ensures r.0 <==> forall y | y in s :: key(y) != key(x)
    ensures forall y | y in s :: y in r.1
    ensures r.0 ==> x in r.1
    ensures forall y | y in r.1 :: y in s || key(y) == key(x)
    ensures |r.1| == if r.0 then |s| + 1 else |s|
  {
    if forall y | y in s :: key(y) != key(x) then (true, s + [x]) else (false, s)
  }

  /** The elements of `s` whose id is not `k`, in order. */
  function Without<T(==)>(s: seq<T>, k: Option<Id>, key: T -> Option<Id>): (r: seq<T>)
    ensures forall y | y in r :: y in s && key(y) != k
    ensures forall y | y in s && key(y) != k :: y in r
  {
    if s == [] then []
    else if key(s[0]) == k then Without(s[1..], k, key)
    else [s[0]] + Without(s[1..], k, key)
  }

  /** `HashSet.remove` under id equality: removes the element equal to `x`,
      whatever its other fields. */
  function HashSetRemove<T(==)>(s: seq<T>, x: T, key: T -> Option<Id>): (r: (bool, seq<T>))
    ensures r.0 <==> exists y | y in s :: key(y) == key(x)
    ensures forall y | y in r.1 :: y in s && key(y) != key(x)
    ensures forall y | y in s && key(y) != key(x) :: y in r.1
  {
    (exists y | y in s :: key(y) == key(x), Without(s, key(x), key))
  }

  /** Adding to a `HashSet` of entities is `SetAdd` on the set of their ids:
      the same answer and the same ids afterwards. */
  lemma HashSetAddIsSetAdd<T>(s: seq<T>, x: T, key: T -> Option<Id>)
    ensures HashSetAdd(s, x, key).0 == SetAdd(KeySet(s, key), key(x)).0
    ensures KeySet(HashSetAdd(s, x, key).1, key) == SetAdd(KeySet(s, key), key(x)).1
  {
    var r := HashSetAdd(s, x, key);
    if !r.0 {
      var y :| y in s && key(y) == key(x);
      assert key(x) in KeySet(s, key);
    }
  }

  /** Removing from a `HashSet` of entities is `SetRemove` on the set of
      their ids. */
  lemma HashSetRemoveIsSetRemove<T>(s: seq<T>, x: T, key: T -> Option<Id>)
    ensures HashSetRemove(s, x, key).0 == SetRemove(KeySet(s, key), key(x)).0
    ensures KeySet(HashSetRemove(s, x, key).1, key) == SetRemove(KeySet(s, key), key(x)).1
  {
  }

  /** Two unsaved students are the same element of a `HashSet`: adding the
      second one is refused, whatever its name or email. */
  lemma UnsavedStudentsCollide(a: Student, b: Student)
    requires a.id.None? && b.id.None?
    ensures !HashSetAdd([a], b, StudentKey).0
  {
    assert StudentKey(a) == StudentKey(b);
  }

  /** `Set.add`: reports whether `x` was absent, and the set afterwards. */
  function SetAdd<T>(s: set<T>, x: T): (r: (bool, set<T>))
    ensures r.0 <==> x !in s
    ensures x in r.1 && s <= r.1 && r.1 - {x} <= s
    ensures !r.0 ==> r.1 == s
  {
    (x !in s, s + {x})
  }

  /** `Set.remove`: reports whether `x` was present, and the set afterwards. */
  function SetRemove<T>(s: set<T>, x: T): (r: (bool, set<T>))
    ensures r.0 <==> x in s
    ensures x !in r.1 && r.1 <= s && s - {x} <= r.1
    ensures !r.0 ==> r.1 == s
  {
    (x in s, s - {x})
  }

  /** Adding an element and then removing it is the identity exactly when
      the add changed the set. */
  lemma AddThenRemove<T>(s: set<T>, x: T)
    ensures SetAdd(s, x).0 ==> SetRemove(SetAdd(s, x).1, x) == (true, s)
    ensures !SetAdd(s, x).0 ==> SetRemove(SetAdd(s, x).1, x).1 != s
  {
  }
}

=== FILE: mappers.dfy ===
/** The field-copying mappers between transfer objects and entities, under
    the two merge disciplines the application uses:
    - a full update overwrites every field the DTO carries, with null too;
    - a patch overwrites only the fields the DTO carries as non-null.
    Neither ever writes the id, and fields the DTO does not carry (a
    student's courses and assignments, an assignment's owner) are never
    touched. */
module Mappers {
  import opened Wrappers
  import opened Entities

  /** The value a patch leaves in a field: the DTO's when non-null, else the
      current one. */
  predicate Patched<T(==)>(r: Option<T>, dto: Option<T>, current: Option<T>) {
    (dto.Some? ==> r == dto) && (dto.None? ==> r == current)
  }

  // ---------------------------------------------------------------- Address

  /** The DTO view of an address (the generated `Address -> AddressDto`). */
  function AddressToDto(a: Address): (r: AddressDto)
    ensures r.street == a.street && r.zipCode == a.zipCode && r.city == a.city
  {
    AddressDto(a.street, a.zipCode, a.city)
  }

  /** An unsaved address built from a DTO (the generated `AddressDto -> Address`). */
  function AddressFromDto(dto: AddressDto): (r: Address)
    ensures r.id.None?
    ensures AddressToDto(r) == dto
  {
    Address(None, dto.street, dto.zipCode, dto.city)
  }

  /** `new Address()`: the target MapStruct creates when there is none. */
  const BlankAddress := Address(None, None, None, None)

  /** `updateAddressFromDto`: every field becomes the DTO's, null included;
      the id is kept. */
  function UpdateAddressFromDto(dto: AddressDto, a: Address): (r: Address)
    ensures r.id == a.id
    ensures AddressToDto(r) == dto
  {
    a.(street := dto.street, zipCode := dto.zipCode, city := dto.city)
  }

  predicate AddressPatched(r: Address, dto: AddressDto, a: Address) {
    && Patched(r.street, dto.street, a.street)
    && Patched(r.zipCode, dto.zipCode, a.zipCode)
    && Patched(r.city, dto.city, a.city)
  }

  /** `patchAddressFromDto`: only the DTO's non-null fields are written; the
      id is kept. */
  function PatchAddressFromDto(dto: AddressDto, a: Address): (r: Address)
    ensures r.id == a.id
    ensures AddressPatched(r, dto, a)
  {
    a.(street := if dto.street.Some? then dto.street else a.street,
       zipCode := if dto.zipCode.Some? then dto.zipCode else a.zipCode,
       city := if dto.city.Some? then dto.city else a.city)
  }

  /** Both address merges are idempotent, and an all-null DTO makes the
      patch the identity. */
  lemma AddressMergesIdempotent(dto: AddressDto, a: Address)
    ensures UpdateAddressFromDto(dto, UpdateAddressFromDto(dto, a)) == UpdateAddressFromDto(dto, a)
    ensures PatchAddressFromDto(dto, PatchAddressFromDto(dto, a)) == PatchAddressFromDto(dto, a)
    ensures dto == AddressDto(None, None, None) ==> PatchAddressFromDto(dto, a) == a
  {
  }

  /** A patch whose every field is non-null is a full update. */
  lemma AddressPatchOfFullDtoIsUpdate(dto: AddressDto, a: Address)
    requires dto.street.Some? && dto.zipCode.Some? && dto.city.Some?
    ensures PatchAddressFromDto(dto, a) == UpdateAddressFromDto(dto, a)
  {
  }

  // ---------------------------------------------------------------- Student

  /** `StudentMapper.toDto`. */
  function StudentToDto(s: Student): (r: StudentDto)
    ensures r.name == s.name && r.email == s.email
    ensures r.address.Some? <==> s.address.Some?
    ensures s.address.Some? ==> r.address.value == AddressToDto(s.address.value)
  {
    StudentDto(s.name, s.email,
      match s.address
      case None => None
      case Some(a) => Some(AddressToDto(a)))
  }

  /** `StudentMapper.toEntity`: an unsaved student, with an unsaved address
      when the DTO has one, no courses, and the DTO's fields. */
  function StudentToEntity(dto: StudentDto): (r: Student)
    ensures r.id.None? && r.courses == {}
    ensures r.address.Some? ==> r.address.value.id.None?
    ensures StudentToDto(r) == dto
  {
    Student(None, dto.name, dto.email,
      match dto.address
      case None => None
      case Some(ad) => Some(AddressFromDto(ad)),
      {})
  }

  /** `updateStudentFromDto`: name, email and address become the DTO's,
      null included. A non-null address is merged into the existing address
      (keeping its id), or into a new one when the student had none. */
  function UpdateStudentFromDto(dto: StudentDto, s: Student): (r: Student)
    ensures r.id == s.id && r.courses == s.courses
    ensures StudentToDto(r) == dto
    ensures dto.address.Some? && s.address.Some? ==> r.address.value.id == s.address.value.id
    ensures dto.address.Some? && s.address.None? ==> r.address.value.id.None?
  {
    s.(name := dto.name, email := dto.email,
       address := match dto.address
                  case None => None
                  case Some(ad) => Some(UpdateAddressFromDto(ad, s.address.GetOr(BlankAddress))))
  }

  /** `patchStudentFromDto`: only non-null DTO fields are written; a
      non-null address is patched into the existing address (keeping its
      id), or into a new one when the student had none. */
  function PatchStudentFromDto(dto: StudentDto, s: Student): (r: Student)
    ensures r.id == s.id && r.courses == s.courses
    ensures Patched(r.name, dto.name, s.name) && Patched(r.email, dto.email, s.email)
    ensures dto.address.None? ==> r.address == s.address
    ensures dto.address.Some? && s.address.Some? ==>
              r.address.Some? && r.address.value.id == s.address.value.id
              && AddressPatched(r.address.value, dto.address.value, s.address.value)
    ensures dto.address.Some? && s.address.None? ==>
              r.address.Some? && r.address.value.id.None?
              && AddressToDto(r.address.value) == dto.address.value
  {
    s.(name := if dto.name.Some? then dto.name else s.name,
       email := if dto.email.Some? then dto.email else s.email,
       address := match dto.address
                  case None => s.address
                  case Some(ad) => Some(PatchAddressFromDto(ad, s.address.GetOr(BlankAddress))))
  }

  /** Both student merges are idempotent and a patch with an all-null DTO
      is the identity. */
  lemma StudentMergesIdempotent(dto: StudentDto, s: Student)
    ensures UpdateStudentFromDto(dto, UpdateStudentFromDto(dto, s)) == UpdateStudentFromDto(dto, s)
    ensures PatchStudentFromDto(dto, PatchStudentFromDto(dto, s)) == PatchStudentFromDto(dto, s)
    ensures dto == StudentDto(None, None, None) ==> PatchStudentFromDto(dto, s) == s
  {
    if dto.address.Some? {
      AddressMergesIdempotent(dto.address.value, s.address.GetOr(BlankAddress));
    }
  }

  // ------------------------------------------------------------- Assignment

  /** The fields an assignment shares with its DTO. */
  function AssignmentView(a: Assignment): (r: AssignmentDto)
    ensures r.title == a.title && r.dueDate == a.dueDate
  {
    AssignmentDto(a.title, a.dueDate)
  }

  /** `AssignmentMapper.toEntity(dto, student)`: an unsaved assignment owned
      by `owner`, with the DTO's title and due date. */
  function AssignmentToEntity(dto: AssignmentDto, owner: Student): (r: Assignment)
    ensures r.id.None? && r.student == owner.id
    ensures AssignmentView(r) == dto
  {
    Assignment(None, dto.title, dto.dueDate, owner.id)
  }

  /** `updateAssignmentFromDto`: title and due date become the DTO's, null
      included; id and owner are kept. */
  function UpdateAssignmentFromDto(dto: AssignmentDto, a: Assignment): (r: Assignment)
    ensures r.id == a.id && r.student == a.student
    ensures AssignmentView(r) == dto
  {
    a.(title := dto.title, dueDate := dto.dueDate)
  }

  /** `patchAssignmentFromDto`: only the non-null DTO fields are written; id
      and owner are kept. */
  function PatchAssignmentFromDto(dto: AssignmentDto, a: Assignment): (r: Assignment)
    ensures r.id == a.id && r.student == a.student
    ensures Patched(r.title, dto.title, a.title) && Patched(r.dueDate, dto.dueDate, a.dueDate)
  {
    a.(title := if dto.title.Some? then dto.title else a.title,
       dueDate := if dto.dueDate.Some? then dto.dueDate else a.dueDate)
  }

  /** Both assignment merges are idempotent; an all-null patch is the
      identity; a patch with no null field is the full update. */
  lemma AssignmentMergeLaws(dto: AssignmentDto, a: Assignment)
    ensures UpdateAssignmentFromDto(dto, UpdateAssignmentFromDto(dto, a)) == UpdateAssignmentFromDto(dto, a)
    ensures PatchAssignmentFromDto(dto, PatchAssignmentFromDto(dto, a)) == PatchAssignmentFromDto(dto, a)
    ensures dto == AssignmentDto(None, None) ==> PatchAssignmentFromDto(dto, a) == a
    ensures dto.title.Some? && dto.dueDate.Some? ==>
              PatchAssignmentFromDto(dto, a) == UpdateAssignmentFromDto(dto, a)
  {
  }

  // ----------------------------------------------------------------- Course

  /** `CourseMapper.toDto`. */
  function CourseToDto(c: Course): (r: CourseDto)
    ensures r.code == c.code && r.name == c.name
  {
    CourseDto(c.code, c.name)
  }

  /** `CourseMapper.toEntity`: an unsaved course with no students yet. */
  function CourseToEntity(dto: CourseDto): (r: Course)
    ensures r.id.None? && r.students == {}
    ensures CourseToDto(r) == dto
  {
    Course(None, dto.code, dto.name, {})
  }
}

=== FILE: store.dfy ===
/** The entity store the repositories give the services: one table per
    entity, keyed by id, with the IDENTITY counter of each table. A student's
    address is held inside the student record, so the address table is the
    set of addresses students hold (`AddressIds`); a student's assignments
    are the assignments that name it as owner (`OwnedAssignments`).

    Also here: the persistence steps the services rely on (saving a student
    with its cascade to the address, saving a batch of assignments, deleting
    a student with its cascades) and the order `findAll` lists rows in. */
module EntityStore {
  import opened Wrappers
  import opened Entities

  datatype Store = Store(
    students: map<Id, Student>,
    courses: map<Id, Course>,
    assignments: map<Id, Assignment>,
    nextStudentId: Id,
    nextCourseId: Id,
    nextAssignmentId: Id,
    nextAddressId: Id)

  /** An empty database: every IDENTITY column starts at 1. */
  const Empty := Store(map[], map[], map[], 1, 1, 1, 1)

  // ------------------------------------------------------------ invariants

  /** Every stored record carries the key it is stored under. */
  ghost predicate IdsMatchKeys(st: Store) {
    && (forall k | k in st.students :: st.students[k].id == Some(k))
    && (forall k | k in st.courses :: st.courses[k].id == Some(k))
    && (forall k | k in st.assignments :: st.assignments[k].id == Some(k))
  }

  /** An address id handed out by the address table's counter. */
  predicate AddressIssued(a: Address, next: Id) {
    a.id.Some? && 1 <= a.id.value < next
  }

  /** Every key (and every stored address id) was handed out by its
      table's counter, so a counter value is never a key yet. */
  ghost predicate IdsIssued(st: Store) {
    && 1 <= st.nextStudentId && 1 <= st.nextCourseId
    && 1 <= st.nextAssignmentId && 1 <= st.nextAddressId
    && (forall k | k in st.students :: 1 <= k < st.nextStudentId)
    && (forall k | k in st.courses :: 1 <= k < st.nextCourseId)
    && (forall k | k in st.assignments :: 1 <= k < st.nextAssignmentId)
    && (forall k | k in st.students && st.students[k].address.Some? ::
          AddressIssued(st.students[k].address.value, st.nextAddressId))
  }

  /** One-to-one: no two students hold the same address row. */
  ghost predicate AddressesExclusive(st: Store) {
    forall j, k | j in st.students && k in st.students && j != k
                  && st.students[j].address.Some? && st.students[k].address.Some? ::
      st.students[j].address.value.id != st.students[k].address.value.id
  }

  /** Both sides of the many-to-many association name stored rows only. */
  ghost predicate LinksResolve(st: Store) {
    && (forall s | s in st.students :: st.students[s].courses <= st.courses.Keys)
    && (forall c | c in st.courses :: st.courses[c].students <= st.students.Keys)
  }

  /** The two sides of the association agree. */
  ghost predicate Symmetric(st: Store) {
    forall s, c | s in st.students && c in st.courses ::
      c in st.students[s].courses <==> s in st.courses[c].students
  }

  /** No assignment exists without its owning student. */
  ghost predicate AssignmentsOwned(st: Store) {
    forall a | a in st.assignments ::
      st.assignments[a].student.Some? && st.assignments[a].student.value in st.students
  }

  ghost predicate Valid(st: Store) {
    && IdsMatchKeys(st)
    && IdsIssued(st)
    && AddressesExclusive(st)
    && LinksResolve(st)
    && Symmetric(st)
    && AssignmentsOwned(st)
  }

  lemma EmptyIsValid()
    ensures Valid(Empty)
  {
  }

  /** Replacing the assignment table keeps the invariant when every row
      carries its key, was issued by the counter and has a stored owner. */
  lemma AssignmentsChangeValid(st: Store, m: map<Id, Assignment>, next: Id)
    requires Valid(st) && st.nextAssignmentId <= next
    requires forall k | k in m :: m[k].id == Some(k) && 1 <= k < next
    requires forall k | k in m :: m[k].student.Some? && m[k].student.value in st.students
    ensures Valid(st.(assignments := m, nextAssignmentId := next))
  {
  }

  /** Adding courses keeps the invariant when the stored ones are kept,
      every row carries its key and was issued by the counter, and every
      new course has no students yet. */
  lemma CoursesChangeValid(st: Store, m: map<Id, Course>, next: Id)
    requires Valid(st) && st.nextCourseId <= next
    requires forall k | k in st.courses :: k in m && m[k] == st.courses[k]
    requires forall k | k in m :: m[k].id == Some(k) && 1 <= k < next
    requires forall k | k in m && k !in st.courses :: m[k].students == {}
    ensures Valid(st.(courses := m, nextCourseId := next))
  {
    var st' := st.(courses := m, nextCourseId := next);
    forall s, c | s in st'.students && c in st'.students[s].courses ensures c in st'.courses {
      assert c in st.courses;
    }
    forall s, c | s in st'.students && c in st'.courses
      ensures c in st'.students[s].courses <==> s in st'.courses[c].students
    {
      if c !in st.courses {
        assert c !in st.students[s].courses;
      }
    }
  }

  /** The student–course pair is in the Linked state: both sides hold the
      link. */
  predicate Linked(st: Store, sid: Id, cid: Id) {
    && sid in st.students && cid in st.courses
    && cid in st.students[sid].courses && sid in st.courses[cid].students
  }

  /** The ids of the address rows: those held by stored students. */
  function AddressIds(st: Store): (r: set<Id>)
    ensures forall k | k in st.students && st.students[k].address.Some?
                       && st.students[k].address.value.id.Some? ::
              st.students[k].address.value.id.value in r
    ensures forall i | i in r :: exists k | k in st.students ::
              st.students[k].address.Some? && st.students[k].address.value.id == Some(i)
  {
    set k | k in st.students && st.students[k].address.Some? && st.students[k].address.value.id.Some?
      :: st.students[k].address.value.id.value
  }

  /** `Student.assignments`: the ids of the assignments `sid` owns. */
  function OwnedAssignments(st: Store, sid: Id): (r: set<Id>)
    ensures forall a :: a in r <==> a in st.assignments && st.assignments[a].student == Some(sid)
  {
    set a | a in st.assignments && st.assignments[a].student == Some(sid)
  }

  // ------------------------------------------------------------ row order

  /** The members of `ks` within `[lo, hi)` in ascending order: the order
      rows of an IDENTITY-keyed table come back in. */
  function Ascending(ks: set<Id>, lo: Id, hi: Id): (r: seq<Id>)
    ensures forall i | 0 <= i < |r| :: r[i] in ks && lo <= r[i] < hi
    ensures forall k | k in ks && lo <= k < hi :: k in r
    ensures forall i, j | 0 <= i < j < |r| :: r[i] < r[j]
    decreases hi - lo
  {
    if lo >= hi then []
    else if lo in ks then [lo] + Ascending(ks, lo + 1, hi)
    else Ascending(ks, lo + 1, hi)
  }

  lemma {:induction false} DistinctCount(r: seq<Id>)
    requires forall i, j | 0 <= i < j < |r| :: r[i] < r[j]
    ensures |set k | k in r| == |r|
  {
    if r != [] {
      DistinctCount(r[1..]);
      assert (set k | k in r) == {r[0]} + (set k | k in r[1..]);
    }
  }

  /** When every member of `ks` is within the bounds, the listing has one
      entry per member. */
  lemma AscendingCount(ks: set<Id>, lo: Id, hi: Id)
    ensures (forall k | k in ks :: lo <= k < hi) ==> |Ascending(ks, lo, hi)| == |ks|
  {
    var r := Ascending(ks, lo, hi);
    if forall k | k in ks :: lo <= k < hi {
      assert (set k | k in r) == ks;
      DistinctCount(r);
    }
  }

  /** The records stored under `ids`, in that order. */
  function Rows<T>(m: map<Id, T>, ids: seq<Id>): (r: seq<T>)
    requires forall i | 0 <= i < |ids| :: ids[i] in m
    ensures |r| == |ids|
    ensures forall i | 0 <= i < |r| :: r[i] == m[ids[i]]
  {
    if ids == [] then [] else [m[ids[0]]] + Rows(m, ids[1..])
  }

  /** Every key listed in `ids` contributes its row. */
  lemma RowsCover<T>(m: map<Id, T>, ids: seq<Id>)
    requires forall i | 0 <= i < |ids| :: ids[i] in m
    ensures forall k | k in ids :: m[k] in Rows(m, ids)
  {
    forall k | k in ids ensures m[k] in Rows(m, ids) {
      var i :| 0 <= i < |ids| && ids[i] == k;
      assert Rows(m, ids)[i] == m[k];
    }
  }

  /** Every row comes from a key listed in `ids`. */
  lemma RowsFrom<T>(m: map<Id, T>, ids: seq<Id>, held: set<Id>)
    requires forall i | 0 <= i < |ids| :: ids[i] in m && ids[i] in held
    ensures forall x | x in Rows(m, ids) :: exists k | k in held && k in m :: m[k] == x
  {
    forall x | x in Rows(m, ids) ensures exists k | k in held && k in m :: m[k] == x {
      var i :| 0 <= i < |Rows(m, ids)| && Rows(m, ids)[i] == x;
      var k := ids[i];
      assert k in held && k in m && m[k] == x;
    }
  }

  /** The rows of `m` whose keys are in `held`, in id order: what a query
      over an IDENTITY-keyed table, or the traversal of a to-many relation,
      returns. */
  function HeldRows<T(==)>(m: map<Id, T>, held: set<Id>, next: Id): (r: seq<T>)
    ensures forall k | k in held && k in m && 1 <= k < next :: m[k] in r
    ensures forall x | x in r :: exists k | k in held && k in m :: m[k] == x
    ensures (forall k | k in held :: k in m && 1 <= k < next) ==> |r| == |held|
  {
    var ids := Ascending(held * m.Keys, 1, next);
    AscendingCount(held * m.Keys, 1, next);
    assert (forall k | k in held :: k in m && 1 <= k < next) ==> held * m.Keys == held;
    RowsCover(m, ids);
    RowsFrom(m, ids, held);
    Rows(m, ids)
  }

  /** Applies a mapper to every element, keeping the order. */
  function MapSeq<A, B>(s: seq<A>, f: A -> B): (r: seq<B>)
    ensures |r| == |s|
    ensures forall i | 0 <= i < |r| :: r[i] == f(s[i])
  {
    if s == [] then [] else [f(s[0])] + MapSeq(s[1..], f)
  }

  lemma MapSeqMember<A, B>(s: seq<A>, f: A -> B, x: A)
    requires x in s
    ensures f(x) in MapSeq(s, f)
  {
    var i :| 0 <= i < |s| && s[i] == x;
    assert MapSeq(s, f)[i] == f(x);
  }

  lemma MapSeqSource<A, B>(s: seq<A>, f: A -> B, y: B)
    requires y in MapSeq(s, f)
    ensures exists x | x in s :: y == f(x)
  {
    var i :| 0 <= i < |s| && MapSeq(s, f)[i] == y;
    assert s[i] in s;
  }

  /** A listing of the mapped rows under distinct keys holds each value as
      often as there are keys whose row maps to it. */
  lemma {:induction false} ListingMultiplicity<T, D>(r: seq<D>, m: map<Id, T>, ids: seq<Id>, f: T -> D, d: D)
    requires |r| == |ids|
    requires forall i | 0 <= i < |ids| :: ids[i] in m && r[i] == f(m[ids[i]])
    requires forall i, j | 0 <= i < j < |ids| :: ids[i] < ids[j]
    ensures multiset(r)[d] == |set k | k in ids && f(m[k]) == d|
  {
    if ids != [] {
      AscendingTail(ids);
      ListingMultiplicity(r[1..], m, ids[1..], f, d);
      assert r == [r[0]] + r[1..];
      MatchesSplit(m, ids, f, d);
    }
  }

  /** Dropping the first key keeps a key sequence ascending, and the first
      key does not recur. */
  lemma AscendingTail(ids: seq<Id>)
    requires ids != []
    requires forall i, j | 0 <= i < j < |ids| :: ids[i] < ids[j]
    ensures forall i, j | 0 <= i < j < |ids[1..]| :: ids[1..][i] < ids[1..][j]
    ensures ids[0] !in ids[1..]
  {
    forall i, j | 0 <= i < j < |ids[1..]| ensures ids[1..][i] < ids[1..][j] {
      assert ids[1..][i] == ids[i + 1] && ids[1..][j] == ids[j + 1];
    }
    forall i | 0 <= i < |ids[1..]| ensures ids[1..][i] != ids[0] {
      assert ids[1..][i] == ids[i + 1];
    }
  }

  /** The keys matching `d` are the first key, if it matches, and the
      matching keys of the rest. */
  lemma MatchesSplit<T, D>(m: map<Id, T>, ids: seq<Id>, f: T -> D, d: D)
    requires ids != [] && ids[0] !in ids[1..]
    requires forall i | 0 <= i < |ids| :: ids[i] in m
    ensures |set k | k in ids && f(m[k]) == d|
            == (if f(m[ids[0]]) == d then 1 else 0) + |set k | k in ids[1..] && f(m[k]) == d|
  {
    var head: set<Id> := if f(m[ids[0]]) == d then {ids[0]} else {};
    var tail := set k | k in ids[1..] && f(m[k]) == d;
    assert forall k :: k in ids <==> k == ids[0] || k in ids[1..];
    assert (set k | k in ids && f(m[k]) == d) == head + tail;
    assert head !! tail;
  }

  lemma SelectedMatches<T, D>(m: map<Id, T>, held: set<Id>, next: Id, ids: seq<Id>, f: T -> D, d: D)
    requires forall k :: k in ids <==> k in held && k in m && 1 <= k < next
    ensures (set k | k in ids && f(m[k]) == d) == (set k | k in held && k in m && 1 <= k < next && f(m[k]) == d)
  {
    var a := set k | k in ids && f(m[k]) == d;
    var b := set k | k in held && k in m && 1 <= k < next && f(m[k]) == d;
    forall k | k in a ensures k in b { }
    forall k | k in b ensures k in a { }
  }

  /** The mapped listing holds `d` once per selected stored key below
      `next` whose row maps to `d`. */
  lemma HeldMultiplicity<T, D>(m: map<Id, T>, held: set<Id>, next: Id, f: T -> D, d: D)
    ensures multiset(MapSeq(HeldRows(m, held, next), f))[d]
            == |set k | k in held && k in m && 1 <= k < next && f(m[k]) == d|
  {
    var ids := Ascending(held * m.Keys, 1, next);
    assert HeldRows(m, held, next) == Rows(m, ids);
    ListingMultiplicity(MapSeq(Rows(m, ids), f), m, ids, f, d);
    SelectedMatches(m, held, next, ids, f, d);
  }

  /** The DTOs of the rows of `m` under the keys in `held`, in id order:
      a listing mapped through a `toDto` mapper. Rows that map to the same
      DTO each contribute their own entry. */
  function HeldDtos<T(==), D(==,!new)>(m: map<Id, T>, held: set<Id>, next: Id, f: T -> D): (r: seq<D>)
    ensures forall d | d in r :: exists k | k in held && k in m :: d == f(m[k])
    ensures forall k | k in held && k in m && 1 <= k < next :: f(m[k]) in r
    ensures (forall k | k in held :: k in m && 1 <= k < next) ==> |r| == |held|
    ensures forall d :: multiset(r)[d] == |set k | k in held && k in m && 1 <= k < next && f(m[k]) == d|
  {
    forall d ensures multiset(MapSeq(HeldRows(m, held, next), f))[d]
                     == |set k | k in held && k in m && 1 <= k < next && f(m[k]) == d| {
      HeldMultiplicity(m, held, next, f, d);
    }
    forall k | k in held && k in m && 1 <= k < next ensures f(m[k]) in MapSeq(HeldRows(m, held, next), f) {
      MapSeqMember(HeldRows(m, held, next), f, m[k]);
    }
    forall d | d in MapSeq(HeldRows(m, held, next), f) ensures exists k | k in held && k in m :: d == f(m[k]) {
      MapSeqSource(HeldRows(m, held, next), f, d);
      var x :| x in HeldRows(m, held, next) && d == f(x);
      var k :| k in held && k in m && m[k] == x;
      assert d == f(m[k]);
    }
    MapSeq(HeldRows(m, held, next), f)
  }

  /** The selected stored keys whose row maps to `d`. */
  ghost function Matching<T, D>(m: map<Id, T>, held: set<Id>, f: T -> D, d: D): set<Id> {
    set k | k in held && k in m && f(m[k]) == d
  }

  /** When every selected key is stored and issued, the mapped listing holds
      `d` once per selected key whose row maps to `d`. */
  lemma HeldDtosCount<T, D(!new)>(m: map<Id, T>, held: set<Id>, next: Id, f: T -> D)
    ensures (forall k | k in held :: k in m && 1 <= k < next) ==>
              forall d :: multiset(HeldDtos(m, held, next, f))[d] == |Matching(m, held, f, d)|
  {
    if forall k | k in held :: k in m && 1 <= k < next {
      forall d ensures multiset(HeldDtos(m, held, next, f))[d] == |Matching(m, held, f, d)| {
        assert (set k | k in held && k in m && 1 <= k < next && f(m[k]) == d) == Matching(m, held, f, d);
      }
    }
  }

  // ---------------------------------------------------------- persistence

  /** The address as the cascade persists it: an unsaved address gets the
      next address id. */
  function PersistAddress(a: Option<Address>, next: Id): (r: (Option<Address>, Id))
    ensures r.0.Some? <==> a.Some?
    ensures a.Some? && a.value.id.Some? ==> r == (a, next)
    ensures a.Some? && a.value.id.None? ==> r == (Some(a.value.(id := Some(next))), next + 1)
    ensures a.None? ==> r.1 == next
  {
    match a
    case Some(addr) => if addr.id.None? then (Some(addr.(id := Some(next))), next + 1) else (a, next)
    case None => (None, next)
  }

  /** `StudentRepository.save`: an unsaved student is inserted under the
      next student id; a saved one overwrites its row. The address is
      persisted with it (cascade PERSIST and MERGE); an address the student
      no longer holds disappears with the old row (orphan removal). */
  function SaveStudent(st: Store, s: Student): (r: (Store, Student))
    ensures r.1.id.Some?
    ensures s.id.Some? ==> r.1.id == s.id && r.0.nextStudentId == st.nextStudentId
    ensures s.id.None? ==> r.1.id == Some(st.nextStudentId) && r.0.nextStudentId == st.nextStudentId + 1
    ensures r.0.students == st.students[r.1.id.value := r.1]
    ensures r.1.name == s.name && r.1.email == s.email && r.1.courses == s.courses
    ensures (r.1.address, r.0.nextAddressId) == PersistAddress(s.address, st.nextAddressId)
    ensures r.0.courses == st.courses && r.0.assignments == st.assignments
    ensures r.0.nextCourseId == st.nextCourseId && r.0.nextAssignmentId == st.nextAssignmentId
  {
    var (address, nextAddressId) := PersistAddress(s.address, st.nextAddressId);
    match s.id
    case None =>
      var saved := s.(id := Some(st.nextStudentId), address := address);
      (st.(students := st.students[st.nextStudentId := saved],
           nextStudentId := st.nextStudentId + 1,
           nextAddressId := nextAddressId),
       saved)
    case Some(k) =>
      var saved := s.(address := address);
      (st.(students := st.students[k := saved], nextAddressId := nextAddressId), saved)
  }

  /** The assignment table after inserting `drafts` in order, the i-th
      under id `next + i`. */
  function StoreBatch(m: map<Id, Assignment>, next: Id, drafts: seq<Assignment>): (r: map<Id, Assignment>)
    ensures forall k :: k in r <==> k in m || next <= k < next + |drafts|
    ensures forall i | 0 <= i < |drafts| :: r[next + i] == drafts[i].(id := Some(next + i))
    ensures forall k | k in m && !(next <= k < next + |drafts|) :: r[k] == m[k]
    decreases |drafts|
  {
    if drafts == [] then m
    else StoreBatch(m[next := drafts[0].(id := Some(next))], next + 1, drafts[1..])
  }

  /** The inserted rows as `saveAll` returns them: each draft with its id. */
  function SavedBatch(next: Id, drafts: seq<Assignment>): (r: seq<Assignment>)
    ensures |r| == |drafts|
    ensures forall i | 0 <= i < |drafts| :: r[i] == drafts[i].(id := Some(next + i))
    decreases |drafts|
  {
    if drafts == [] then [] else [drafts[0].(id := Some(next))] + SavedBatch(next + 1, drafts[1..])
  }

  /** Inserting under ids no row holds yet adds one row per draft. */
  lemma {:induction false} StoreBatchCount(m: map<Id, Assignment>, next: Id, drafts: seq<Assignment>)
    ensures (forall k | k in m :: k < next) ==> |StoreBatch(m, next, drafts)| == |m| + |drafts|
    decreases |drafts|
  {
    if drafts != [] && forall k | k in m :: k < next {
      assert next !in m;
      StoreBatchCount(m[next := drafts[0].(id := Some(next))], next + 1, drafts[1..]);
    }
  }

  /** `AssignmentRepository.saveAll`: the unsaved assignments are inserted
      in order, each under the next assignment id. */
  function InsertAssignments(st: Store, drafts: seq<Assignment>): (r: (Store, seq<Assignment>))
    ensures r.0.nextAssignmentId == st.nextAssignmentId + |drafts|
    ensures |r.1| == |drafts|
    ensures forall k :: k in r.0.assignments <==>
              k in st.assignments || st.nextAssignmentId <= k < r.0.nextAssignmentId
    ensures forall i | 0 <= i < |drafts| ::
              r.1[i] == drafts[i].(id := Some(st.nextAssignmentId + i))
              && r.0.assignments[st.nextAssignmentId + i] == r.1[i]
    ensures forall k | k in st.assignments && !(st.nextAssignmentId <= k < r.0.nextAssignmentId) ::
              r.0.assignments[k] == st.assignments[k]
    ensures (forall k | k in st.assignments :: k < st.nextAssignmentId) ==>
              |r.0.assignments| == |st.assignments| + |drafts|
    ensures r.0.students == st.students && r.0.courses == st.courses
    ensures r.0.nextStudentId == st.nextStudentId && r.0.nextCourseId == st.nextCourseId
    ensures r.0.nextAddressId == st.nextAddressId
  {
    var next := st.nextAssignmentId;
    StoreBatchCount(st.assignments, next, drafts);
    (st.(assignments := StoreBatch(st.assignments, next, drafts), nextAssignmentId := next + |drafts|),
     SavedBatch(next, drafts))
  }

  /** `CourseRepository.saveAll`: the unsaved courses are inserted in
      order, each under the next course id. */
  function InsertCourses(st: Store, drafts: seq<Course>): (r: Store)
    ensures r.nextCourseId == st.nextCourseId + |drafts|
    ensures forall k :: k in r.courses <==> k in st.courses || st.nextCourseId <= k < r.nextCourseId
    ensures forall i | 0 <= i < |drafts| ::
              r.courses[st.nextCourseId + i] == drafts[i].(id := Some(st.nextCourseId + i))
    ensures forall k | k in st.courses && !(st.nextCourseId <= k < r.nextCourseId) ::
              r.courses[k] == st.courses[k]
    ensures r == st.(courses := r.courses, nextCourseId := r.nextCourseId)
    decreases |drafts|
  {
    if drafts == [] then st
    else
      var next := st.nextCourseId;
      InsertCourses(st.(courses := st.courses[next := drafts[0].(id := Some(next))], nextCourseId := next + 1),
                    drafts[1..])
  }

  /** Inserting unsaved courses that have no students yet keeps the store
      invariant. */
  lemma InsertCoursesValid(st: Store, drafts: seq<Course>)
    requires Valid(st)
    requires forall i | 0 <= i < |drafts| :: drafts[i].students == {}
    ensures Valid(InsertCourses(st, drafts))
  {
    var r := InsertCourses(st, drafts);
    forall k | k in r.courses
      ensures r.courses[k].id == Some(k) && 1 <= k < r.nextCourseId
      ensures k !in st.courses ==> r.courses[k].students == {}
    {
      if st.nextCourseId <= k < r.nextCourseId {
        assert r.courses[k] == drafts[k - st.nextCourseId].(id := Some(k));
      }
    }
    CoursesChangeValid(st, r.courses, r.nextCourseId);
  }

  /** After a batch insert of drafts owned by a stored student, every row
      carries its key, was issued by the counter and has a stored owner. */
  lemma InsertedRows(st: Store, drafts: seq<Assignment>, sid: Id)
    requires IdsMatchKeys(st) && IdsIssued(st) && AssignmentsOwned(st) && sid in st.students
    requires forall i | 0 <= i < |drafts| :: drafts[i].student == Some(sid)
    ensures var st' := InsertAssignments(st, drafts).0;
            forall k | k in st'.assignments ::
              && st'.assignments[k].id == Some(k) && 1 <= k < st'.nextAssignmentId
              && st'.assignments[k].student.Some? && st'.assignments[k].student.value in st.students
  {
    var (st', saved) := InsertAssignments(st, drafts);
    forall k | k in st'.assignments
      ensures st'.assignments[k].id == Some(k) && 1 <= k < st'.nextAssignmentId
      ensures st'.assignments[k].student.Some? && st'.assignments[k].student.value in st.students
    {
      if st.nextAssignmentId <= k {
        assert st'.assignments[k] == saved[k - st.nextAssignmentId];
      } else {
        assert st'.assignments[k] == st.assignments[k];
      }
    }
  }

  /** After a batch insert of drafts owned by `sid`, the student owns what
      it owned before and every inserted row. */
  lemma InsertedOwned(st: Store, drafts: seq<Assignment>, sid: Id)
    requires forall i | 0 <= i < |drafts| :: drafts[i].student == Some(sid)
    ensures forall k :: k in OwnedAssignments(InsertAssignments(st, drafts).0, sid) <==>
              k in OwnedAssignments(st, sid) || st.nextAssignmentId <= k < st.nextAssignmentId + |drafts|
  {
    var (st', saved) := InsertAssignments(st, drafts);
    forall k
      ensures k in OwnedAssignments(st', sid) <==>
              k in OwnedAssignments(st, sid) || st.nextAssignmentId <= k < st.nextAssignmentId + |drafts|
    {
      if st.nextAssignmentId <= k < st.nextAssignmentId + |drafts| {
        assert st'.assignments[k] == saved[k - st.nextAssignmentId];
      } else if k in st.assignments {
        assert st'.assignments[k] == st.assignments[k];
      }
    }
  }

  /** `StudentRepository.deleteById` on a stored student with the cascades of
      its mapping: the address goes with the row (cascade ALL), so do its
      assignments (cascade ALL), and the courses stay (only PERSIST and
      MERGE cascade to them). The student's rows of the `student_course`
      join table go too, which takes it out of every course's `students`. */
  function DeleteStudentCascade(st: Store, sid: Id): (r: Store)
    ensures r.students.Keys == st.students.Keys - {sid}
    ensures forall k | k in r.students :: r.students[k] == st.students[k]
    ensures forall a :: a in r.assignments <==> a in st.assignments && a !in OwnedAssignments(st, sid)
    ensures forall a | a in r.assignments :: r.assignments[a] == st.assignments[a]
    ensures r.courses.Keys == st.courses.Keys
    ensures forall c | c in r.courses ::
              r.courses[c].students == st.courses[c].students - {sid}
              && r.courses[c] == st.courses[c].(students := r.courses[c].students)
    ensures r.nextStudentId == st.nextStudentId && r.nextCourseId == st.nextCourseId
    ensures r.nextAssignmentId == st.nextAssignmentId && r.nextAddressId == st.nextAddressId
  {
    st.(students := st.students - {sid},
        assignments := map a | a in st.assignments && st.assignments[a].student != Some(sid) :: st.assignments[a],
        courses := map c | c in st.courses :: st.courses[c].(students := st.courses[c].students - {sid}))
  }
}

=== FILE: student_service.dfy ===
/** `StudentService`: CRUD over students. Every call that names a student
    first checks that it exists and otherwise fails with NotFound
    "Student not found with id <id>". */
module StudentService {
  import opened Wrappers
  import opened Entities
  import opened Mappers
  import opened EntityStore

  function NotFoundMessage(id: Id): string {
    "Student not found with id " + IdToString(id)
  }

  /** `save`: a new student with a fresh id and the DTO's fields. */
  function Save(st: Store, dto: StudentDto): (r: (Store, Student))
    ensures r.1.id == Some(st.nextStudentId) && r.0.nextStudentId == st.nextStudentId + 1
    ensures StudentToDto(r.1) == dto && r.1.courses == {}
    ensures r.1.address.Some? ==> r.1.address.value.id == Some(st.nextAddressId)
    ensures r.0.students == st.students[st.nextStudentId := r.1]
    ensures r.0.courses == st.courses && r.0.assignments == st.assignments
    ensures r.0.nextAddressId == st.nextAddressId + (if dto.address.Some? then 1 else 0)
    ensures r.0.nextCourseId == st.nextCourseId && r.0.nextAssignmentId == st.nextAssignmentId
  {
    SaveStudent(st, StudentToEntity(dto))
  }

  /** `findAll`: every stored student once, in id order. */
  function FindAll(st: Store): (r: seq<Student>)
    ensures forall i | 0 <= i < |r| :: r[i] in st.students.Values
    ensures IdsIssued(st) ==> |r| == |st.students|
    ensures IdsIssued(st) ==> forall k | k in st.students :: st.students[k] in r
  {
    HeldRows(st.students, st.students.Keys, st.nextStudentId)
  }

  /** `findById`: the stored student, or NotFound. */
  function FindById(st: Store, id: Id): (r: Result<Student>)
    ensures r.Ok? <==> id in st.students
    ensures r.Ok? ==> r.value == st.students[id]
    ensures r.Err? ==> r.error == NotFound(NotFoundMessage(id))
  {
    if id in st.students then Ok(st.students[id]) else Err(NotFound(NotFoundMessage(id)))
  }

  /** `findAllCourses`: the DTO of every course the student holds, or
      NotFound. */
  function FindAllCourses(st: Store, id: Id): (r: Result<seq<CourseDto>>)
    ensures r.Ok? <==> id in st.students
    ensures r.Err? ==> r.error == NotFound(NotFoundMessage(id))
    ensures r.Ok? ==> forall d | d in r.value ::
              exists c | c in st.students[id].courses && c in st.courses :: d == CourseToDto(st.courses[c])
    ensures r.Ok? && IdsIssued(st) && LinksResolve(st) ==>
              |r.value| == |st.students[id].courses|
              && forall c | c in st.students[id].courses :: CourseToDto(st.courses[c]) in r.value
    ensures r.Ok? && IdsIssued(st) && LinksResolve(st) ==>
              forall d :: multiset(r.value)[d] == |Matching(st.courses, st.students[id].courses, CourseToDto, d)|
  {
    var student :- FindById(st, id);
    HeldDtosCount(st.courses, student.courses, st.nextCourseId, CourseToDto);
    Ok(HeldDtos(st.courses, student.courses, st.nextCourseId, CourseToDto))
  }

  /** `deleteById`: removes the student with its cascades (its address, the
      assignments it owns, its join-table rows), or fails NotFound without
      touching the store; every other student and assignment is untouched. */
  function DeleteById(st: Store, id: Id): (r: Result<Store>)
    ensures r.Ok? <==> id in st.students
    ensures r.Err? ==> r.error == NotFound(NotFoundMessage(id))
    ensures r.Ok? ==> r.value.students.Keys == st.students.Keys - {id}
                      && |r.value.students| == |st.students| - 1
    ensures r.Ok? ==> OwnedAssignments(r.value, id) == {} && r.value.courses.Keys == st.courses.Keys
    ensures r.Ok? ==> forall k | k in r.value.students :: r.value.students[k] == st.students[k]
    ensures r.Ok? ==> forall a :: a in r.value.assignments <==> a in st.assignments && st.assignments[a].student != Some(id)
    ensures r.Ok? ==> forall a | a in r.value.assignments :: r.value.assignments[a] == st.assignments[a]
    ensures r.Ok? ==> forall c | c in r.value.courses ::
              r.value.courses[c] == st.courses[c].(students := st.courses[c].students - {id})
    ensures r.Ok? ==> r.value.nextStudentId == st.nextStudentId && r.value.nextCourseId == st.nextCourseId
                      && r.value.nextAssignmentId == st.nextAssignmentId && r.value.nextAddressId == st.nextAddressId
  {
    if id in st.students then Ok(DeleteStudentCascade(st, id)) else Err(NotFound(NotFoundMessage(id)))
  }

  /** `updateById`: a full overwrite of name, email and address, id and
      courses kept; the address keeps its id when both the student and the
      DTO have one, and is a new row when only the DTO has one. */
  function UpdateById(st: Store, id: Id, dto: StudentDto): (r: Result<(Store, Student)>)
    ensures r.Ok? <==> id in st.students
    ensures r.Err? ==> r.error == NotFound(NotFoundMessage(id))
    ensures r.Ok? ==>
              var before := st.students[id];
              var s := r.value.1;
              && StudentToDto(s) == dto && s.courses == before.courses
              && (dto.address.Some? && before.address.None? ==> s.address.value.id == Some(st.nextAddressId))
              && r.value.0.courses == st.courses && r.value.0.assignments == st.assignments
    ensures r.Ok? && IdsIssued(st) && dto.address.Some? && st.students[id].address.Some? ==>
              r.value.1.address.value.id == st.students[id].address.value.id
    ensures r.Ok? && IdsMatchKeys(st) ==>
              r.value.1.id == Some(id) && r.value.0.students == st.students[id := r.value.1]
              && r.value.0.nextStudentId == st.nextStudentId
    ensures r.Ok? ==> r.value.0.nextCourseId == st.nextCourseId && r.value.0.nextAssignmentId == st.nextAssignmentId
    ensures r.Ok? ==> st.nextAddressId <= r.value.0.nextAddressId <= st.nextAddressId + 1
    ensures r.Ok? && IdsIssued(st) ==>
              r.value.0.nextAddressId
              == st.nextAddressId + (if dto.address.Some? && st.students[id].address.None? then 1 else 0)
  {
    var found :- FindById(st, id);
    Ok(SaveStudent(st, UpdateStudentFromDto(dto, found)))
  }

  /** `patchById`: only the DTO's non-null fields change; a null address
      keeps the existing one; id and courses are kept. */
  function PatchById(st: Store, id: Id, dto: StudentDto): (r: Result<(Store, Student)>)
    ensures r.Ok? <==> id in st.students
    ensures r.Err? ==> r.error == NotFound(NotFoundMessage(id))
    ensures r.Ok? ==>
              var before := st.students[id];
              var s := r.value.1;
              && Patched(s.name, dto.name, before.name) && Patched(s.email, dto.email, before.email)
              && s.courses == before.courses
              && (dto.address.Some? && before.address.Some? ==>
                    s.address.Some? && AddressPatched(s.address.value, dto.address.value, before.address.value))
              && (dto.address.Some? && before.address.None? ==>
                    s.address.Some? && s.address.value.id == Some(st.nextAddressId)
                    && AddressToDto(s.address.value) == dto.address.value)
              && r.value.0.courses == st.courses && r.value.0.assignments == st.assignments
    ensures r.Ok? && IdsIssued(st) && dto.address.None? ==> r.value.1.address == st.students[id].address
    ensures r.Ok? && IdsIssued(st) && dto.address.Some? && st.students[id].address.Some? ==>
              r.value.1.address.Some? && r.value.1.address.value.id == st.students[id].address.value.id
    ensures r.Ok? && IdsMatchKeys(st) ==>
              r.value.1.id == Some(id) && r.value.0.students == st.students[id := r.value.1]
              && r.value.0.nextStudentId == st.nextStudentId
    ensures r.Ok? ==> r.value.0.nextCourseId == st.nextCourseId && r.value.0.nextAssignmentId == st.nextAssignmentId
    ensures r.Ok? ==> st.nextAddressId <= r.value.0.nextAddressId <= st.nextAddressId + 1
    ensures r.Ok? && IdsIssued(st) ==>
              r.value.0.nextAddressId
              == st.nextAddressId + (if dto.address.Some? && st.students[id].address.None? then 1 else 0)
  {
    var found :- FindById(st, id);
    Ok(SaveStudent(st, PatchStudentFromDto(dto, found)))
  }

  // --------------------------------------------------------------- lemmas

  /** Saving a student that is new (no courses, no saved address) or that
      keeps its row's courses and address id preserves the store invariant. */
  lemma SaveStudentPreservesValid(st: Store, s: Student)
    requires Valid(st)
    requires s.id.None? ==> s.courses == {} && (s.address.Some? ==> s.address.value.id.None?)
    requires s.id.Some? ==> s.id.value in st.students && s.courses == st.students[s.id.value].courses
    requires s.id.Some? && s.address.Some? && s.address.value.id.Some? ==>
               st.students[s.id.value].address.Some?
               && s.address.value.id == st.students[s.id.value].address.value.id
    ensures Valid(SaveStudent(st, s).0)
  {
    var (st', saved) := SaveStudent(st, s);
    var k := saved.id.value;
    forall j | j in st'.students && st'.students[j].address.Some?
      ensures AddressIssued(st'.students[j].address.value, st'.nextAddressId)
    {
      if j != k {
        assert st'.students[j] == st.students[j];
      }
    }
    forall j, i | j in st'.students && i in st'.students && j != i
                  && st'.students[j].address.Some? && st'.students[i].address.Some?
      ensures st'.students[j].address.value.id != st'.students[i].address.value.id
    {
      if j == k {
        assert st'.students[i] == st.students[i];
      } else if i == k {
        assert st'.students[j] == st.students[j];
      }
    }
  }

  lemma SavePreservesValid(st: Store, dto: StudentDto)
    requires Valid(st)
    ensures Valid(Save(st, dto).0)
  {
    SaveStudentPreservesValid(st, StudentToEntity(dto));
  }

  lemma UpdateByIdPreservesValid(st: Store, id: Id, dto: StudentDto)
    requires Valid(st) && UpdateById(st, id, dto).Ok?
    ensures Valid(UpdateById(st, id, dto).value.0)
  {
    SaveStudentPreservesValid(st, UpdateStudentFromDto(dto, st.students[id]));
  }

  lemma PatchByIdPreservesValid(st: Store, id: Id, dto: StudentDto)
    requires Valid(st) && PatchById(st, id, dto).Ok?
    ensures Valid(PatchById(st, id, dto).value.0)
  {
    SaveStudentPreservesValid(st, PatchStudentFromDto(dto, st.students[id]));
  }

  lemma DeleteByIdPreservesValid(st: Store, id: Id)
    requires Valid(st) && DeleteById(st, id).Ok?
    ensures Valid(DeleteById(st, id).value)
  {
    var st' := DeleteById(st, id).value;
    assert Symmetric(st') by {
      forall s, c | s in st'.students && c in st'.courses
        ensures c in st'.students[s].courses <==> s in st'.courses[c].students
      {
        assert st'.students[s] == st.students[s];
      }
    }
  }

  /** Deleting a student deletes its address row and all its assignments,
      and never a course. */
  lemma DeleteCascades(st: Store, id: Id)
    requires Valid(st) && DeleteById(st, id).Ok?
    ensures var st' := DeleteById(st, id).value;
            && (st.students[id].address.Some? ==> st.students[id].address.value.id.value !in AddressIds(st'))
            && (forall a | a in st.assignments && st.assignments[a].student == Some(id) :: a !in st'.assignments)
            && st'.courses.Keys == st.courses.Keys
            && forall c | c in st'.courses :: CourseToDto(st'.courses[c]) == CourseToDto(st.courses[c])
  {
  }

  /** A full update with a null address deletes the old address row
      (orphan removal). */
  lemma UpdateNullAddressRemovesOrphan(st: Store, id: Id, dto: StudentDto)
    requires Valid(st) && id in st.students && st.students[id].address.Some?
    requires dto.address.None?
    ensures UpdateById(st, id, dto).Ok?
    ensures UpdateById(st, id, dto).value.1.address.None?
    ensures st.students[id].address.value.id.value !in AddressIds(UpdateById(st, id, dto).value.0)
  {
  }

  /** A saved student is found again under its new id and reads back as
      the DTO it was created from. */
  lemma SaveThenFind(st: Store, dto: StudentDto)
    ensures var (st', s) := Save(st, dto);
            FindById(st', st.nextStudentId) == Ok(s) && StudentToDto(s) == dto
  {
  }

  /** A deleted student is no longer found. */
  lemma DeleteThenFind(st: Store, id: Id)
    requires DeleteById(st, id).Ok?
    ensures FindById(DeleteById(st, id).value, id) == Err(NotFound(NotFoundMessage(id)))
  {
  }

  /** On a valid store a patch whose every field is null changes nothing:
      the student, its address and every counter stay as they were. */
  lemma EmptyPatchIsNoOp(st: Store, id: Id)
    requires Valid(st) && id in st.students
    ensures PatchById(st, id, StudentDto(None, None, None)) == Ok((st, st.students[id]))
  {
    StudentMergesIdempotent(StudentDto(None, None, None), st.students[id]);
    assert st.students[id := st.students[id]] == st.students;
  }
}

=== FILE: wrappers.dfy ===
/** Failure-compatible wrappers shared by every service: an Option for the
    source's nullable references and fields, and a Result that carries either
    a value or one of the two exceptions the services throw. */
module Wrappers {

  /** A nullable Java reference: `None` is `null`. */
  datatype Option<+T> = None | Some(value: T) {

    /** The wrapped value, or `default` when null. */
    function GetOr(default: T): T {
      match this
      case Some(v) => v
      case None => default
    }
  }

  /** The two exceptions of the services: `ResourceNotFoundException` and
      `UniqueFieldException`, each with its message. */
  datatype Error = NotFound(message: string) | Conflict(message: string)

  /** The outcome of a service call: a value, or the exception it threw. */
  datatype Result<+T> = Ok(value: T) | Err(error: Error) {

    predicate IsFailure() {
      Err?
    }

    function PropagateFailure<U>(): Result<U>
      requires Err?
    {
      Err(error)
    }

    function Extract(): T
      requires Ok?
    {
      value
    }
  }

  function DigitChar(d: nat): (c: char)
    requires d < 10
    ensures '0' <= c <= '9' && c as int - '0' as int == d
  {
    "0123456789"[d]
  }

  /** Decimal digits of a non-negative number, most significant first,
      without leading zeros. */
  function Decimal(n: nat): (r: string)
    ensures |r| >= 1
    ensures forall i :: 0 <= i < |r| ==> '0' <= r[i] <= '9'
    ensures n > 0 ==> r[0] != '0'
  {
    if n < 10 then [DigitChar(n)] else Decimal(n / 10) + [DigitChar(n % 10)]
  }

  /** The number a string of decimal digits denotes: the reading that
      `Long.parseLong` gives, and the partner of `Decimal`. */
  function DecimalValue(s: string): nat
    requires forall i :: 0 <= i < |s| ==> '0' <= s[i] <= '9'
  {
    if s == [] then 0
    else DecimalValue(s[..|s| - 1]) * 10 + (s[|s| - 1] as int - '0' as int)
  }

  /** Reading the rendering of `n` back gives `n`. */
  lemma {:induction false} DecimalRoundTrip(n: nat)
    ensures DecimalValue(Decimal(n)) == n
  {
    if n >= 10 {
      var r := Decimal(n);
      assert r[..|r| - 1] == Decimal(n / 10);
      DecimalRoundTrip(n / 10);
    }
  }

  /** `Long.toString`, as string concatenation renders an id in a message:
      a '-' for a negative id, then the digits of its magnitude without
      leading zeros, which read back as that magnitude. */
  function IdToString(i: int): (r: string)
    ensures |r| >= 1
    ensures r[0] == '-' <==> i < 0
    ensures i < 0 ==> |r| >= 2 && r[1] != '0'
    ensures var digits := if i < 0 then r[1..] else r;
            && (forall j | 0 <= j < |digits| :: '0' <= digits[j] <= '9')
            && (i != 0 ==> digits[0] != '0')
            && DecimalValue(digits) == (if i < 0 then -i else i)
  {
    if i < 0 then
      DecimalRoundTrip(-i);
      var d := Decimal(-i);
      assert ("-" + d)[1..] == d;
      "-" + d
    else
      DecimalRoundTrip(i);
      Decimal(i)
  }

  /** Distinct ids are rendered differently, so each message names exactly
      one id. */
  lemma IdToStringInjective(a: int, b: int)
    ensures IdToString(a) == IdToString(b) ==> a == b
  {
    if IdToString(a) == IdToString(b) {
      if a < 0 {
        var da, db := Decimal(-a), Decimal(-b);
        assert da == ("-" + da)[1..];
        assert db == ("-" + db)[1..];
        DecimalInjective(-a, -b);
      } else {
        DecimalInjective(a, b);
      }
    }
  }

  lemma DecimalInjective(m: nat, n: nat)
    ensures Decimal(m) == Decimal(n) ==> m == n
  {
    DecimalRoundTrip(m);
    DecimalRoundTrip(n);
  }
}
